=== FILE: README.md ===
# Chalked: a verified model of the stock-market core

Chalked is a campus app in which every professor has a "stock". Students
vote a professor's price up or down while the market is open. The server
pushes each price change to every connected phone, and it announces large
moves as news. This project models the logic underneath that in Dafny:

- the backend process (`chalked-backend/src/app.ts`):
  - the market clock;
  - the in-memory professor ledger and its seed;
  - the vote endpoint, with its guards, the counter updates and the
    broadcasts it triggers;
  - the push-channel session registry with its per-professor rooms;
- the mobile client's store (`chalked-mobile/src/stores/appStore.ts`):
  - the mirror of the server's records and the leaderboard and
    "my professors" views derived from it;
  - the news feed;
  - the betting balance;
- the class-selection screen's toggle, with its limit of seven
  professors, and its continue guard;
- the registration screen's chain of checks.

Each module is a set of immutable datatypes and pure state-to-state
functions. Lemmas then relate several operations: invariants kept by
every vote, round trips, uniqueness of the stable sort, and what a given
phone receives after a vote and how its store changes as a result.

Modules, in dependency order:

| file | module | what it holds |
|---|---|---|
| `wrappers.dfy` | `Wrappers` | `Option`, `Result` |
| `seqs.dfy` | `Seqs` | order-preserving filter and its lemmas |
| `percentages.dfy` | `Percentages` | `num / den * 100` as an exact rational, with JavaScript's infinities and NaN for a zero base |
| `domain.dfy` | `Domain` | the professor record and the news event |
| `market_clock.dfy` | `MarketClock` | market hours, hour parsing, `updateMarketStatus` |
| `ledger.dfy` | `Ledger` | the seed, lookup by id, one vote on one record |
| `sessions.dfy` | `Sessions` | connected sessions and their rooms |
| `server.dfy` | `Server` | handlers, broadcasts, the vote endpoint |
| `leaderboard.dfy` | `Leaderboard` | stable descending sort and the top five |
| `app_store.dfy` | `AppStore` | the client store's actions |
| `class_selection.dfy` | `ClassSelection` | the toggle and the continue guard |
| `registration.dfy` | `Registration` | the registration checks |
| `mirror_sync.dfy` | `MirrorSync` | what a session receives after a vote, and how the store follows it |
| `scenarios.dfy` | `Scenarios` | concrete runs on the seed |

How the model represents the source:

- The ledger is a `seq<Professor>`, and a vote is a function from the
  old state to a `Result` of the new state and the emitted messages.
- Every emitted message carries its audience as a set of session ids.
- The current time is passed in as a parameter: the day, hour and minute
  for the market clock, and an opaque stamp for record times.
- `dailyChangePercent` is an exact rational. A zero starting price gives
  the infinities or `NaN` that JavaScript division produces, rather than
  being excluded by a precondition.

Where the two halves of the system disagree, the model follows the code.
Three cases matter:

- The client store does not recompute `topProfessors` or `myProfessors`
  when a stock update patches a record. So after a live update the
  leaderboard shows the order of the last full fetch.
- The client ignores the stock update's `volume`. Its vote tallies
  therefore lag the server's until the next full fetch.
- The client has no listener for `professor_update`, so the room
  broadcast has no effect on its store.

`MirrorSync.MirrorFollowsStockUpdate` and `MirrorSync.ClientAfterVote`
state all three.

The class-selection screen saves the chosen professors only into a user
who is already signed in. But the app shows that screen only while the
store is not authenticated. The only ways to set a user (logging in)
also authenticate the store. The only way to leave the authenticated
state (logging out) clears the user first. So when the screen runs
there is no user, and the selection is dropped.
`ClassSelection.SelectionLostWithoutUser` states the consequence: the
student's own list stays empty on every later fetch. The navigation
that leads to this state is screen wiring outside this model.

## Model

| member | source | states |
|---|---|---|
| Percentages.PercentOf | chalked-backend/src/app.ts:274 | a finite percentage `p` satisfies `p * den == 100 * num` whenever `den != 0`; a zero base gives +Infinity, -Infinity or NaN according to the sign of the change |
| Percentages.SignificantIff | chalked-backend/src/app.ts:281-282 | on a positive base, the float test `abs(num / den * 100) >= 10` holds exactly when `10 * num >= den` or `10 * num <= -den` |
| Percentages.PositiveIff | chalked-backend/src/app.ts:283 | on a positive base, the percentage is positive exactly when the change is |
| MarketClock.BeforeColon | chalked-backend/src/app.ts:47-48 | the hour text is the longest colon-free prefix of the setting |
| MarketClock.LeadingDigits | chalked-backend/src/app.ts:47-48 | `parseInt` reads the longest prefix of decimal digits, stopping at the first non-digit |
| MarketClock.ParseInt | chalked-backend/src/app.ts:47-48 | the result is NaN exactly when no digit follows the optional sign; a leading minus gives a value at most zero and anything else a value at least zero |
| MarketClock.LeadingDigitsOfDigits | chalked-backend/src/app.ts:47-48 | a run of digits followed by text that does not start with a digit is read exactly up to its end |
| MarketClock.ParseIntValue | chalked-backend/src/app.ts:47-48 | for any digit string followed by anything that does not start with a digit, `parseInt` returns the decimal value of the digits |
| MarketClock.ParseIntSignedValue | chalked-backend/src/app.ts:47-48 | after a leading `-` that value is negated, and after a leading `+` it is kept |
| MarketClock.AtHourOn | chalked-backend/src/app.ts:55 | `setHours(h)` on a given day gives an hour within 0..23 and the same absolute hour, carrying any overflow into other days |
| MarketClock.UpdateMarketStatus | chalked-backend/src/app.ts:42-64 | open exactly when the open hour <= the current hour < the close hour; the time settings and timezone are kept; while open, `nextOpenTime` is left as it was; while closed it is today at the open hour if that hour is still ahead, otherwise tomorrow at the open hour, or an invalid date if the open hour does not parse |
| MarketClock.MinutesIgnored | chalked-backend/src/app.ts:44-50 | the minute never affects the status |
| MarketClock.NextOpenIsNextOpening | chalked-backend/src/app.ts:50-63 | with `0 <= open < close <= 24`, a closed market's `nextOpenTime` is after now, the market is open at that hour, and it is closed at every whole hour in between |
| MarketClock.ParseHourOfPadded | chalked-backend/src/app.ts:47-48 | parsing the hour of a zero-padded `HH:MM` setting gives back `HH` |
| MarketClock.ConfiguredHours | chalked-backend/src/app.ts:34-39 | the shipped setting parses to an open hour of 8 and a close hour of 21 |
| MarketClock.StatusForWindow | chalked-backend/src/app.ts:47-63 | for any window whose open hour lies within the day: open exactly inside `[open, close)`; before opening the next open time is today at `open`, and after closing it is tomorrow at `open` |
| MarketClock.ConfiguredWindow | chalked-backend/src/app.ts:34-63 | the server is open exactly from 8 to 21 o'clock; before 8 it next opens today at 8, and from 21 tomorrow at 8 |
| Ledger.ParseVoteType | chalked-backend/src/app.ts:240-241 | only the exact strings `upvote` and `downvote` are accepted; a missing field or any other value is rejected |
| Ledger.SeedIsConsistent | chalked-backend/src/app.ts:156-202 | every seed record has tallies that add up to its vote count, a change equal to price minus starting price, and a matching percentage; ids are distinct; every record starts from 100 |
| Ledger.FindIndex | chalked-backend/src/app.ts:248 | the lookup returns the first record with the id, or none exactly when no record has it |
| Ledger.ApplyVote | chalked-backend/src/app.ts:263-275 | an upvote raises price, change and upvotes by one; a downvote lowers price and change by one, with no lower bound, and raises downvotes; either way the vote count rises by one, the percentage is recomputed from the new price, and identity and starting price are untouched |
| Ledger.VotePreservesConsistency | chalked-backend/src/app.ts:263-274 | a vote keeps tallies adding up to the vote count, change equal to price minus starting price, and the percentage derived from the change |
| Ledger.UpvoteDownvoteCancel | chalked-backend/src/app.ts:263-274 | an upvote followed by a downvote restores price, change and percentage, while both count as votes |
| Sessions.RoomName | chalked-backend/src/app.ts:91 | a professor's room name is `professor_` followed by exactly the professor id |
| Sessions.RoomNameInjective | chalked-backend/src/app.ts:118 | different professors have different rooms |
| Sessions.InRoom | chalked-backend/src/app.ts:118 | a room broadcast reaches exactly the connected sessions that are in the room |
| Sessions.Connect | chalked-backend/src/app.ts:71 | a new connection is registered in no room, and other sessions are untouched |
| Sessions.Disconnect | chalked-backend/src/app.ts:80-82 | a disconnected session leaves the registry and every room, and other sessions are untouched |
| Sessions.Subscribe | chalked-backend/src/app.ts:90-93 | a connected session joins the professor's room and nothing else changes; an unknown session changes nothing |
| Sessions.Unsubscribe | chalked-backend/src/app.ts:95-97 | a connected session leaves the professor's room and nothing else changes; an unknown session changes nothing |
| Sessions.SubscribeIdempotent | chalked-backend/src/app.ts:90-93 | subscribing twice is the same as subscribing once |
| Sessions.UnsubscribeUndoesSubscribe | chalked-backend/src/app.ts:90-97 | unsubscribing undoes a subscription the session did not hold before |
| Sessions.SubscribeAudience | chalked-backend/src/app.ts:90-93 | after subscribing to one professor, the session hears that professor, and its membership for every other professor is as before |
| Sessions.RoomAudienceIsSubscribers | chalked-backend/src/app.ts:118 | the audience of a professor's room is exactly the connected sessions subscribed to that professor |
| Server.Start | chalked-backend/src/app.ts:66-68 | at start-up the ledger is exactly the seed, which is consistent and has three records, and no session is connected; the market keeps its `08:00`/`21:00` settings and is open exactly between 8 and 21 o'clock; while closed its `nextOpenTime` is 8 o'clock today before opening and 8 o'clock tomorrow after closing, and while open it keeps the initial empty value |
| Server.Tick | chalked-backend/src/app.ts:66-68 | the periodic recomputation changes only the market status; the new status is the recomputed one, with its `nextOpenTime`, and is open exactly inside the configured window |
| Server.OnConnect | chalked-backend/src/app.ts:71-78 | a new session is registered in no room and every other session keeps its rooms; it alone receives the market status and then the whole ledger |
| Server.OnGetProfessors | chalked-backend/src/app.ts:85-87 | the whole ledger goes to the asking session only |
| Server.OnSubscribe | chalked-backend/src/app.ts:90-93 | the registry becomes `Sessions.Subscribe`'s result, so a connected session is afterwards subscribed to the professor and every other membership is kept; ledger and market are untouched |
| Server.OnUnsubscribe | chalked-backend/src/app.ts:95-97 | the registry becomes `Sessions.Unsubscribe`'s result, so afterwards the session is not subscribed to the professor and every other membership is kept; ledger and market are untouched |
| Server.OnDisconnect | chalked-backend/src/app.ts:80-82 | the registry becomes `Sessions.Disconnect`'s result, so afterwards the session is in no audience and every other session keeps its rooms; ledger and market are untouched |
| Server.BroadcastStockUpdate | chalked-backend/src/app.ts:101-119 | the stock update carries the new price, change, percentage and vote count and goes to every connected session; the record goes to exactly the professor's subscribers |
| Server.HeadlineFor | chalked-backend/src/app.ts:283-287 | a headline's direction is up exactly when the percentage is positive; it names the professor and carries the percentage and price |
| Server.BroadcastNewsEvent | chalked-backend/src/app.ts:122-137 | a news event goes to every connected session, tagged as an announcement whatever its direction, with the professor id attached |
| Server.HttpStatus | chalked-backend/src/app.ts:233-254 | an unknown professor is answered with 404, and every other refusal with 400 |
| Server.SubmitVote | chalked-backend/src/app.ts:232-305 | the guards fire in source order: a closed market, then a bad vote type, then an unknown id; each holds exactly when its error is returned, and success holds exactly when none fires; on success only the first record with the id changes, by one vote, and market, sessions, the ledger's length and every other record are unchanged |
| Server.VoteBroadcasts | chalked-backend/src/app.ts:277-290 | a successful vote emits exactly one stock update, to everyone, first; then the record to the professor's subscribers; then an announcement to everyone exactly when the percentage's magnitude is at least 10, whose direction is up exactly when the percentage is positive |
| Server.VoteKeepsLedgerConsistent | chalked-backend/src/app.ts:263-275 | a successful vote keeps every record consistent and keeps the ids in place |
| Server.NewsThreshold | chalked-backend/src/app.ts:281-282 | for a record starting at 100, news is emitted exactly when the new price is at least 110 or at most 90 |
| Server.Step | chalked-backend/src/app.ts:233-254 | a refused vote leaves the whole state unchanged |
| Server.ReplayKeepsLedgerConsistent | chalked-backend/src/app.ts:232-305 | after any sequence of vote requests, accepted or refused, every record is still consistent, the ids and their order are unchanged, and market and sessions are untouched |
| Leaderboard.Insert | chalked-mobile/src/stores/appStore.ts:73-74 | inserting into a sorted list gives a sorted list with the same records plus the new one |
| Leaderboard.InsertBelowAll | chalked-mobile/src/stores/appStore.ts:73-74 | a record priced below every record already there goes last |
| Leaderboard.SortByStock | chalked-mobile/src/stores/appStore.ts:73-74 | the sort is in non-increasing price order and a permutation of its input |
| Leaderboard.InsertWithStock | chalked-mobile/src/stores/appStore.ts:73-74 | among records of one price, the inserted record comes before those already there |
| Leaderboard.SortIsStable | chalked-mobile/src/stores/appStore.ts:73-74 | for every price, the sort keeps the records of that price in their input order |
| Leaderboard.HeadOfWithStock | chalked-mobile/src/stores/appStore.ts:73-74 | the first record of a list is the first of its price, and records of other prices do not involve it |
| Leaderboard.FirstIsHighest | chalked-mobile/src/stores/appStore.ts:73-74 | of two sorted lists holding the same records of every price in the same order, the first starts at a price no higher than the second's, so by symmetry both start at the same price |
| Leaderboard.SameRecords | chalked-mobile/src/stores/appStore.ts:73-74 | lists that hold the same records of every price, in the same order, are permutations of each other |
| Leaderboard.StableSortUnique | chalked-mobile/src/stores/appStore.ts:73-74 | two sorted lists that order every price's records identically are equal |
| Leaderboard.SortByStockIsTheStableSort | chalked-mobile/src/stores/appStore.ts:73-74 | a list is a stable descending sort of the input exactly when it is the sort's result |
| Leaderboard.SortKeepsLength | chalked-mobile/src/stores/appStore.ts:73-74 | the sort neither adds nor drops records |
| Leaderboard.TopProfessorsSpec | chalked-mobile/src/stores/appStore.ts:73-75 | the leaderboard holds `min(5, n)` records in non-increasing price order and is a prefix of every stable descending sort of the input |
| Leaderboard.TopProfessorsDominateRest | chalked-mobile/src/stores/appStore.ts:73-75 | the leaderboard and the records left off it together make up the input, and no record left off is priced above one on the board |
| AppStore.SetUser | chalked-mobile/src/stores/appStore.ts:63 | the store is authenticated afterwards exactly when a user is given; every other field is kept |
| AppStore.SetAuthenticated | chalked-mobile/src/stores/appStore.ts:64 | the flag becomes the given value and every other field is kept |
| AppStore.SetProfessors | chalked-mobile/src/stores/appStore.ts:67-78 | the records are replaced, and both views are derived from the new records and the current user; every other field is kept |
| AppStore.SetMarketHours | chalked-mobile/src/stores/appStore.ts:100 | the market hours become the given status and every other field of the store is kept |
| AppStore.MyProfessorsSpec | chalked-mobile/src/stores/appStore.ts:68-71 | "my professors" is empty without a user; otherwise it is an order-preserving subsequence of the records holding every record whose id the user selected, as often as it occurs, and no other |
| AppStore.TopProfessorsAfterSet | chalked-mobile/src/stores/appStore.ts:73-75 | after `setProfessors`, the leaderboard holds `min(5, n)` records, sorted, and is a prefix of every stable descending sort |
| AppStore.PatchStock | chalked-mobile/src/stores/appStore.ts:82-92 | length and order are kept, records with other ids are unchanged, and every record with the id gets the new price and change, the percentage recomputed from its own starting price, and the new stamp |
| AppStore.UpdateProfessorStock | chalked-mobile/src/stores/appStore.ts:80-93 | only the records change; the leaderboard and "my professors" keep what the last `setProfessors` computed |
| AppStore.UnknownIdIsNoOp | chalked-mobile/src/stores/appStore.ts:80-93 | a patch for an id the store does not hold changes nothing |
| AppStore.PatchIdempotent | chalked-mobile/src/stores/appStore.ts:84-89 | patching twice with the same values equals patching once at the later time |
| AppStore.AddNewsEvent | chalked-mobile/src/stores/appStore.ts:95-98 | the new event comes first, the feed holds `min(50, old + 1)` events, the rest is a prefix of the old feed, and nothing else changes |
| AppStore.NewsNewestFirst | chalked-mobile/src/stores/appStore.ts:95-98 | two events that arrive in turn are listed newest first |
| AppStore.PlaceBet | chalked-mobile/src/stores/appStore.ts:102-106 | the bet is appended and its amount taken from the balance, with no check that the balance suffices; nothing else changes |
| AppStore.UpdateBalance | chalked-mobile/src/stores/appStore.ts:108-111 | the amount, which may be negative, is added to the balance; nothing else changes |
| AppStore.RefundRestoresBalance | chalked-mobile/src/stores/appStore.ts:102-111 | crediting a bet's amount back restores the balance and keeps the bet active |
| ClassSelection.Toggle | chalked-mobile/src/screens/auth/ClassSelectionScreen.tsx:38-52 | tapping a selected id removes every occurrence and keeps the rest in order; an unselected id is appended while fewer than 7 are selected; otherwise the limit alert shows and the selection is unchanged |
| ClassSelection.DisabledIffLimit | chalked-mobile/src/screens/auth/ClassSelectionScreen.tsx:95 | a row is disabled exactly when tapping it would hit the limit |
| ClassSelection.ToggleKeepsValid | chalked-mobile/src/screens/auth/ClassSelectionScreen.tsx:38-51 | tapping keeps the selection free of duplicates and at most 7 long |
| ClassSelection.ToggleTwiceRestores | chalked-mobile/src/screens/auth/ClassSelectionScreen.tsx:40-49 | tapping an unselected id twice, with room for it, restores the selection |
| ClassSelection.Continue | chalked-mobile/src/screens/auth/ClassSelectionScreen.tsx:54-81 | an empty selection is refused; otherwise the signed-in user's selection becomes exactly the chosen ids, the store is authenticated, and every other field of the store is kept |
| ClassSelection.ContinueThenFetch | chalked-mobile/src/screens/auth/ClassSelectionScreen.tsx:67-72 | after continuing, the next full fetch shows exactly the selected professors' records, in ledger order |
| ClassSelection.SelectionLostWithoutUser | chalked-mobile/src/screens/auth/ClassSelectionScreen.tsx:66-75 | with no signed-in user, continuing still authenticates the store, but the selection is kept nowhere, and every later full fetch shows no records as the student's own |
| ClassSelection.FreshStoreForgetsSelection | chalked-mobile/src/screens/auth/ClassSelectionScreen.tsx:66-75 | from the store as the app starts it (no user, a balance of 1000), continuing authenticates with no user, and every later full fetch shows no records as the student's own |
| Registration.ValidateRegistration | chalked-mobile/src/screens/auth/RegisterScreen.tsx:22-50 | the error shown is the first failing check among empty fields, a non-`.edu` or `@`-less email, a password under 6 characters, and mismatched passwords; acceptance happens exactly when all pass, and carries the email unchanged |
| Registration.AcceptedEmailShape | chalked-mobile/src/screens/auth/RegisterScreen.tsx:28-31 | an accepted email has an `@` before its `.edu` suffix, so it is at least five characters long |
| MirrorSync.Receive | chalked-mobile/src/stores/appStore.ts:118-140 | a professors message replaces the records, a stock update patches one record, a news event is prepended to the feed, and a market status replaces the store's market hours; a record pushed to the professor's room changes nothing, since the client has no listener for it |
| MirrorSync.ConnectSyncsClient | chalked-backend/src/app.ts:71-78 | a client that connects and handles what it is sent ends up showing the server's market status and ledger, with its own list derived from that ledger for its user |
| MirrorSync.Delivered | chalked-backend/src/app.ts:115-118 | what a session receives: every message whose audience includes it, and only such messages, never more messages than were emitted |
| MirrorSync.DeliveredToNobody | chalked-backend/src/app.ts:115-136 | a session in no audience receives nothing |
| MirrorSync.SessionDeliveries | chalked-backend/src/app.ts:277-290 | a connected session receives the stock update first; then the record exactly when it is subscribed; then the announcement last exactly when the move is significant; and no second stock update |
| MirrorSync.DisconnectedHearsNothing | chalked-backend/src/app.ts:80-82 | a session that is not connected receives nothing from a vote |
| MirrorSync.MirrorFollowsStockUpdate | chalked-mobile/src/stores/appStore.ts:123-130 | a store mirroring the ledger follows a vote's stock update in price, change and percentage; it keeps its old tallies because `volume` is ignored, and it stamps its own time |
| MirrorSync.ReceiveVoteShape | chalked-mobile/src/stores/appStore.ts:118-140 | a stock update, an optional room record and an optional news event leave leaderboard and "my professors" unchanged and add exactly that news event |
| MirrorSync.ClientAfterVote | chalked-mobile/src/stores/appStore.ts:118-140 | after a session's deliveries for a vote, its leaderboard and "my professors" are what they were, and its feed gains the announcement, about the voted professor, exactly when the move was significant |
| Scenarios.StartIsReady | chalked-backend/src/app.ts:156-171 | a server started at 10 o'clock is open, with `prof-1` first at price 95 after 23 votes |
| Scenarios.QuietUpvoteOnFirst | chalked-backend/src/app.ts:263-290 | an upvote on `prof-1` from a price between 90 and 108 succeeds, raises the price by one and emits no news |
| Scenarios.FiveUpvotes | chalked-backend/src/app.ts:263-274 | each of five upvotes on `prof-1` from 95 is accepted and emits only the stock update and the room record, with no news; together they bring it back to 100 at 0 percent after 28 votes |
| Scenarios.SidewaysRejected | chalked-backend/src/app.ts:240-246 | while the market is open, a vote of type `sideways`, or with no type, is refused and changes nothing |
| Scenarios.ClosedAtNight | chalked-backend/src/app.ts:233-238 | outside 8 to 21 o'clock the freshly started server refuses every vote as market closed |
| Scenarios.SortsTwo | chalked-mobile/src/stores/appStore.ts:73-74 | two records in strictly descending price order sort to themselves |
| Scenarios.RanksThree | chalked-mobile/src/stores/appStore.ts:73-75 | three records priced in the order second, third, first are ranked in that order |
| Scenarios.SeedLeaderboard | chalked-mobile/src/stores/appStore.ts:73-75 | the seed's prices 95, 108 and 102 rank as `prof-2`, `prof-3`, `prof-1` |

## Left out

- Express routing, JSON bodies, CORS, environment loading, the error and
  404 middleware, and the read-only routes (`/health`,
  `/api/market/status`, `/api/professors`, `/api/professors/:id`). They
  are I/O plumbing around the state the model keeps. The response body of
  a vote is reduced to a `VoteReceipt` and the updated record.
- The Socket.IO transport and `chalked-mobile/src/services/api.ts`. They
  are network code. Rooms are modelled as a map from session to its set
  of room names. The room Socket.IO gives each socket for its own id is
  never addressed by the code, so it is left out.
- `connectToAPI`, `disconnectFromAPI`, `fetchProfessors`, `voteProfessor`
  and `fetchMarketStatus` in the store. They are asynchronous network
  glue. What their listeners do on each message is modelled by
  `MirrorSync.Receive`.
- `setInterval`, `Date`, `Date.now()` and `toISOString()`. The clock is
  a parameter: a day, hour and minute for the market clock, and an
  opaque integer stamp elsewhere. Ids such as `news_<ms>` and
  `vote-<ms>` are represented by that stamp.
- AppStore.PlaceBet: the balance and the bet amount are exact reals.
  The source computes with IEEE doubles, and their rounding is not
  modelled.
- AppStore.UpdateBalance: the balance is an exact real, and the double
  rounding of the source's addition is not modelled.
- AppStore.RefundRestoresBalance: holds for exact reals only. With
  doubles, crediting a very large amount back can lose the original
  balance to rounding, for example a balance of 1 and an amount of 3e16.
- `setLoading` and `isLoading`: the loading flag only drives UI
  spinners and is not modelled.
- MirrorSync.ClientAfterVote: assumes the store's listeners are
  registered once, so each delivered message is handled exactly once.
  In the app, each tab screen calls `connectToAPI` when it mounts. The
  API service reuses the connected socket but adds another listener on
  every call. So once several tabs have been visited, a news event can
  be prepended to the feed more than once. Listener registration is not
  modelled.
- Server.SubmitVote: one stamp `now` stands for every clock read of a
  vote. That covers the record's `lastUpdated`, the stock update's
  timestamp, the news id, `createdAt` and timestamp, and the receipt's
  id and `createdAt`. The source reads the clock separately for each, so
  these stamps can differ by a few milliseconds there, while the model
  makes them equal.
- MarketClock.UpdateMarketStatus: the hour and day are the server's
  local ones, passed in. The `timezone` field is carried along but, as
  in the source, never consulted. Daylight-saving transitions are not
  modelled. One `today` stands for both clock reads: the current hour
  (app.ts:43) and the fresh `new Date()` the next opening is built from
  (app.ts:54 or :59). So a recompute that straddles midnight, which the
  source could date one day later, is not modelled.
- MarketClock.ParseInt: models an optional sign followed by decimal
  digits. It leaves out `parseInt`'s skipping of leading whitespace and
  its `0x` prefix, neither of which occurs in an `HH:MM` setting.
- Percentages.PercentOf: the result is an exact rational, not an IEEE
  double. So the model has no rounding in `dailyChangePercent`, and
  `SignificantIff` compares exactly where the source compares rounded
  values.
- Server.BroadcastNewsEvent: the title and description texts, which
  include emojis and `toFixed(1)`, are represented by a `Headline`. It
  carries the direction, the name, the percentage and the price the
  texts are built from.
- Registration.ValidateRegistration: string length counts characters.
  JavaScript counts UTF-16 code units, so the two can differ for
  passwords outside the Basic Multilingual Plane.
- UI screens, navigation and styles. This includes the betting,
  portfolio, leaderboard, news, profile, email-verification and login
  screens. The login screen's checks are the registration screen's first
  two.
- The type declaration files. They contain only interfaces, which shape
  the datatypes here. The client's record type names the course list
  `classes`, while the server sends `courses`. The model has one shared
  record type.

=== FILE: app_store.dfy ===
/** The mobile client's store: a local mirror of the server's records and
    the student's own state. Every action is a function from the old store
    to the new one. */
module AppStore {
  import opened Wrappers
  import opened Percentages
  import opened Domain
  import opened Leaderboard
  import MarketClock
  import Seqs

  datatype User = User(
    id: string,
    email: string,
    schoolDomain: string,
    isVerified: bool,
    createdAt: string,
    selectedProfessors: seq<string>)

  datatype BetType = Call | Put
  datatype BetStatus = Active | Won | Lost | Expired

  datatype Bet = Bet(
    id: string,
    studentId: string,
    professorId: string,
    betType: BetType,
    amount: real,
    targetPrice: real,
    currentPrice: real,
    expiresAt: string,
    status: BetStatus,
    potentialReturn: real)

  datatype State = State(
    user: Option<User>,
    isAuthenticated: bool,
    isLoading: bool,
    professors: seq<Professor>,
    myProfessors: seq<Professor>,
    topProfessors: seq<Professor>,
    marketHours: MarketClock.MarketHours,
    newsEvents: seq<NewsEvent>,
    studentBalance: real,
    activeBets: seq<Bet>)

  /** How many news events the feed keeps. */
  const NewsCap := 50

  /** The store before anything arrives; its market hours carry no
      timezone. */
  const Initial := State(None, false, false, [], [], [],
                         MarketClock.MarketHours(false, "08:00", "21:00", "", None),
                         [], 1000.0, [])

  /** `setUser`: a user is present exactly when the store is authenticated
      afterwards. The derived views are not recomputed. */
  function SetUser(st: State, user: Option<User>): (r: State)
    ensures r.user == user
    ensures r.isAuthenticated <==> user.Some?
    ensures r.professors == st.professors && r.myProfessors == st.myProfessors && r.topProfessors == st.topProfessors
    ensures r.(user := st.user, isAuthenticated := st.isAuthenticated) == st
  {
    st.(user := user, isAuthenticated := user.Some?)
  }

  /** `setAuthenticated`: only the flag changes. */
  function SetAuthenticated(st: State, isAuthenticated: bool): (r: State)
    ensures r.isAuthenticated == isAuthenticated
    ensures r.(isAuthenticated := st.isAuthenticated) == st
  {
    st.(isAuthenticated := isAuthenticated)
  }

  /** `setMarketHours`: the market status is replaced and nothing else
      changes. */
  function SetMarketHours(st: State, hours: MarketClock.MarketHours): (r: State)
    ensures r.marketHours == hours
    ensures r.(marketHours := st.marketHours) == st
  {
    st.(marketHours := hours)
  }

  /** The records whose id the user selected, in ledger order; none when
      there is no user. */
  function MyProfessorsOf(user: Option<User>, ps: seq<Professor>): seq<Professor> {
    match user
    case None => []
    case Some(u) => Seqs.Filter(ps, (p: Professor) => p.id in u.selectedProfessors)
  }

  /** `setProfessors`: replace the records and derive both views from them. */
  function SetProfessors(st: State, ps: seq<Professor>): (r: State)
    ensures r.professors == ps
    ensures r.user == st.user && r.newsEvents == st.newsEvents && r.studentBalance == st.studentBalance
    ensures r.marketHours == st.marketHours
    ensures r.(professors := st.professors, myProfessors := st.myProfessors, topProfessors := st.topProfessors) == st
    ensures r.topProfessors == TopProfessors(ps)
    ensures r.myProfessors == MyProfessorsOf(st.user, ps)
  {
    st.(professors := ps, myProfessors := MyProfessorsOf(st.user, ps), topProfessors := TopProfessors(ps))
  }

  /** `myProfessors` after `setProfessors`: empty without a user; otherwise
      every record whose id the user selected, as often as it occurs, none
      other, in the order of `ps`. */
  lemma MyProfessorsSpec(st: State, ps: seq<Professor>)
    ensures var my := SetProfessors(st, ps).myProfessors;
            && (st.user.None? ==> my == [])
            && (st.user.Some? ==>
                  && Seqs.Subsequence(my, ps)
                  && forall p :: multiset(my)[p] == if p.id in st.user.value.selectedProfessors then multiset(ps)[p] else 0)
  {
    if st.user.Some? {
      var keep := (p: Professor) => p.id in st.user.value.selectedProfessors;
      Seqs.FilterIsSubsequence(ps, keep);
      forall p
        ensures multiset(Seqs.Filter(ps, keep))[p] == if p.id in st.user.value.selectedProfessors then multiset(ps)[p] else 0
      {
        Seqs.FilterCount(ps, keep, p);
      }
    }
  }

  /** `topProfessors` after `setProfessors`: the first `min(5, n)` records
      of the stable descending sort by price. */
  lemma TopProfessorsAfterSet(st: State, ps: seq<Professor>)
    ensures var t := SetProfessors(st, ps).topProfessors;
            && |t| == (if |ps| < TopCount then |ps| else TopCount)
            && SortedByStockDesc(t)
            && (forall out :: IsStableSortOf(out, ps) ==> t <= out)
  {
    TopProfessorsSpec(ps);
  }

  /** A record after a stock-update patch at time `now`. */
  function PatchRecord(p: Professor, newStock: int, change: int, now: Stamp): Professor {
    p.(currentStock := newStock,
       dailyChange := change,
       dailyChangePercent := PercentOf(change, p.startingStock),
       lastUpdated := now)
  }

  /** `professors.map(...)`: patch every record with the id, keep the rest. */
  function PatchStock(ps: seq<Professor>, id: string, newStock: int, change: int, now: Stamp): (r: seq<Professor>)
    ensures |r| == |ps|
    ensures forall i :: 0 <= i < |ps| && ps[i].id != id ==> r[i] == ps[i]
    ensures forall i :: 0 <= i < |ps| && ps[i].id == id ==>
              && r[i].currentStock == newStock && r[i].dailyChange == change
              && r[i].dailyChangePercent == PercentOf(change, r[i].startingStock)
              && r[i] == ps[i].(currentStock := newStock, dailyChange := change,
                                dailyChangePercent := r[i].dailyChangePercent, lastUpdated := now)
  {
    seq(|ps|, i requires 0 <= i < |ps| => if ps[i].id == id then PatchRecord(ps[i], newStock, change, now) else ps[i])
  }

  /** `updateProfessorStock`: only `professors` changes; the derived views
      keep what the last `setProfessors` computed. */
  function UpdateProfessorStock(st: State, id: string, newStock: int, change: int, now: Stamp): (r: State)
    ensures r.professors == PatchStock(st.professors, id, newStock, change, now)
    ensures r.topProfessors == st.topProfessors && r.myProfessors == st.myProfessors
    ensures r.(professors := st.professors) == st
  {
    st.(professors := PatchStock(st.professors, id, newStock, change, now))
  }

  /** A patch for an id the mirror does not hold changes nothing. */
  lemma UnknownIdIsNoOp(st: State, id: string, newStock: int, change: int, now: Stamp)
    requires forall i :: 0 <= i < |st.professors| ==> st.professors[i].id != id
    ensures UpdateProfessorStock(st, id, newStock, change, now) == st
  {
    assert PatchStock(st.professors, id, newStock, change, now) == st.professors;
  }

  /** The patch replaces values rather than adding to them: a repeated
      patch leaves what the last one left. */
  lemma PatchIdempotent(st: State, id: string, newStock: int, change: int, t1: Stamp, t2: Stamp)
    ensures UpdateProfessorStock(UpdateProfessorStock(st, id, newStock, change, t1), id, newStock, change, t2)
            == UpdateProfessorStock(st, id, newStock, change, t2)
  {
    var once := PatchStock(st.professors, id, newStock, change, t1);
    assert PatchStock(once, id, newStock, change, t2) == PatchStock(st.professors, id, newStock, change, t2);
  }

  /** `addNewsEvent`: the event goes first and the feed keeps at most 50,
      dropping the oldest. */
  function AddNewsEvent(st: State, e: NewsEvent): (r: State)
    ensures |r.newsEvents| == if |st.newsEvents| + 1 < NewsCap then |st.newsEvents| + 1 else NewsCap
    ensures r.newsEvents[0] == e
    ensures r.newsEvents[1..] <= st.newsEvents
    ensures |st.newsEvents| < NewsCap ==> r.newsEvents == [e] + st.newsEvents
    ensures r.(newsEvents := st.newsEvents) == st
  {
    var feed := [e] + st.newsEvents;
    var kept := if |feed| < NewsCap then |feed| else NewsCap;
    assert feed[..kept][1..] == st.newsEvents[..kept - 1];
    st.(newsEvents := feed[..kept])
  }

  /** Two events arriving in turn are shown newest first. */
  lemma NewsNewestFirst(st: State, e1: NewsEvent, e2: NewsEvent)
    ensures var r := AddNewsEvent(AddNewsEvent(st, e1), e2);
            |r.newsEvents| >= 2 && r.newsEvents[0] == e2 && r.newsEvents[1] == e1
  {
  }

  /** `placeBet`: the bet is appended and its amount taken from the
      balance, which may go below zero. */
  function PlaceBet(st: State, bet: Bet): (r: State)
    ensures r.activeBets == st.activeBets + [bet]
    ensures r.studentBalance == st.studentBalance - bet.amount
    ensures r.(activeBets := st.activeBets, studentBalance := st.studentBalance) == st
  {
    st.(activeBets := st.activeBets + [bet], studentBalance := st.studentBalance - bet.amount)
  }

  /** `updateBalance`: add `amount`, which may be negative. */
  function UpdateBalance(st: State, amount: real): (r: State)
    ensures r.studentBalance == st.studentBalance + amount
    ensures r.(studentBalance := st.studentBalance) == st
  {
    st.(studentBalance := st.studentBalance + amount)
  }

  /** Crediting a bet's amount back restores the balance and keeps the bet. */
  lemma RefundRestoresBalance(st: State, bet: Bet)
    ensures var r := UpdateBalance(PlaceBet(st, bet), bet.amount);
            r.studentBalance == st.studentBalance && r.activeBets[|r.activeBets| - 1] == bet
  {
  }
}

=== FILE: class_selection.dfy ===
/** The class-selection screen: the student picks up to seven professors,
    one tap at a time, and continues once at least one is picked. */
module ClassSelection {
  import opened Wrappers
  import opened Domain
  import opened AppStore
  import Seqs

  const MaxProfessors := 7

  /** The selection after a tap, and whether the limit alert was shown. */
  datatype ToggleResult = ToggleResult(selection: seq<string>, limitAlert: bool)

  /** `prev.filter(id => id !== professorId)`. */
  function Without(sel: seq<string>, id: string): seq<string> {
    Seqs.Filter(sel, (x: string) => x != id)
  }

  /** `handleProfessorToggle`: a selected id is removed everywhere it
      occurs; an unselected one is appended while there is room, and
      otherwise the limit alert is shown and nothing changes. */
  function Toggle(sel: seq<string>, id: string): (r: ToggleResult)
    ensures id in sel ==> !r.limitAlert && id !in r.selection
    ensures id in sel ==> Seqs.Subsequence(r.selection, sel)
    ensures id in sel ==> forall x :: x != id ==> multiset(r.selection)[x] == multiset(sel)[x]
    ensures id !in sel && |sel| < MaxProfessors ==> r == ToggleResult(sel + [id], false)
    ensures id !in sel && |sel| >= MaxProfessors ==> r == ToggleResult(sel, true)
  {
    if id in sel then
      var keep := (x: string) => x != id;
      Seqs.FilterIsSubsequence(sel, keep);
      assert forall x :: x != id ==> multiset(Seqs.Filter(sel, keep))[x] == multiset(sel)[x] by {
        forall x | x != id {
          Seqs.FilterCount(sel, keep, x);
        }
      }
      ToggleResult(Without(sel, id), false)
    else if |sel| >= MaxProfessors then ToggleResult(sel, true)
    else ToggleResult(sel + [id], false)
  }

  /** `isDisabled` of a professor's row. */
  predicate IsDisabled(sel: seq<string>, id: string) {
    id !in sel && |sel| >= MaxProfessors
  }

  /** A row is disabled exactly when tapping it would hit the limit. */
  lemma DisabledIffLimit(sel: seq<string>, id: string)
    ensures IsDisabled(sel, id) <==> Toggle(sel, id).limitAlert
  {
  }

  /** What every reachable selection satisfies. */
  predicate ValidSelection(sel: seq<string>) {
    Seqs.NoDuplicates(sel) && |sel| <= MaxProfessors
  }

  /** Tapping keeps the selection free of duplicates and within the limit. */
  lemma ToggleKeepsValid(sel: seq<string>, id: string)
    requires ValidSelection(sel)
    ensures ValidSelection(Toggle(sel, id).selection)
  {
    if id in sel {
      Seqs.FilterNoDuplicates(sel, (x: string) => x != id);
    }
  }

  /** Tapping an unselected professor twice, with room for it, restores
      the selection. */
  lemma ToggleTwiceRestores(sel: seq<string>, id: string)
    requires id !in sel && |sel| < MaxProfessors
    ensures Toggle(Toggle(sel, id).selection, id).selection == sel
  {
    var keep := (x: string) => x != id;
    Seqs.FilterAppend(sel, [id], keep);
    Seqs.FilterAllKept(sel, keep);
    assert Seqs.Filter([id], keep) == [];
  }

  datatype SelectionError = NoProfessorSelected

  /** `handleContinue`: an empty selection is refused; otherwise the
      signed-in user's selection becomes exactly `sel` and the store is
      authenticated. Without a user, only the authentication changes. */
  function Continue(st: State, sel: seq<string>): (r: Result<State, SelectionError>)
    ensures r.Err? <==> sel == []
    ensures r.Ok? ==> r.value.isAuthenticated
    ensures r.Ok? && st.user.Some? ==> r.value.user == Some(st.user.value.(selectedProfessors := sel))
    ensures r.Ok? && st.user.None? ==> r.value.user.None?
    ensures r.Ok? ==> r.value.professors == st.professors && r.value.myProfessors == st.myProfessors
    ensures r.Ok? ==> r.value.topProfessors == st.topProfessors
    ensures r.Ok? ==> r.value.(user := st.user, isAuthenticated := st.isAuthenticated) == st
  {
    if |sel| == 0 then Err(NoProfessorSelected)
    else
      var withUser := match st.user
        case Some(u) => SetUser(st, Some(u.(selectedProfessors := sel)))
        case None => st;
      Ok(SetAuthenticated(withUser, true))
  }

  /** Once the selection is saved, the next full fetch shows the student
      exactly the selected professors' records, in ledger order. */
  lemma ContinueThenFetch(st: State, sel: seq<string>, ps: seq<Professor>)
    requires st.user.Some? && sel != []
    ensures var saved := Continue(st, sel).value;
            var my := SetProfessors(saved, ps).myProfessors;
            && Seqs.Subsequence(my, ps)
            && forall p :: multiset(my)[p] == if p.id in sel then multiset(ps)[p] else 0
  {
    MyProfessorsSpec(Continue(st, sel).value, ps);
  }

  /** Without a signed-in user the chosen ids are kept nowhere: the store
      is authenticated, and every later full fetch shows no records as the
      student's own. */
  lemma SelectionLostWithoutUser(st: State, sel: seq<string>, ps: seq<Professor>)
    requires st.user.None? && sel != []
    ensures Continue(st, sel).Ok? && Continue(st, sel).value.isAuthenticated
    ensures SetProfessors(Continue(st, sel).value, ps).myProfessors == []
  {
  }

  /** The same from the store as the app starts it. */
  lemma FreshStoreForgetsSelection(sel: seq<string>, ps: seq<Professor>)
    requires sel != []
    ensures var saved := Continue(AppStore.Initial, sel).value;
            && saved.isAuthenticated && saved.user.None?
            && saved.studentBalance == 1000.0
            && SetProfessors(saved, ps).myProfessors == []
  {
    SelectionLostWithoutUser(AppStore.Initial, sel, ps);
  }
}

=== FILE: domain.dfy ===
/** The records both halves of the system exchange: the professor stock
    record and the news event. The backend and the mobile client declare
    them separately; the fields they share are the ones modelled here
    (the backend's `courses` is the client's `classes`). Timestamps are
    opaque integers handed in by the caller. */
module Domain {
  import opened Percentages
  import opened Wrappers

  /** Milliseconds of some clock; only ever copied, never inspected. */
  type Stamp = int

  /** One professor's stock record. */
  datatype Professor = Professor(
    id: string,
    name: string,
    department: string,
    courses: seq<string>,
    currentStock: int,
    startingStock: int,
    dailyChange: int,
    dailyChangePercent: Percent,
    totalVotes: int,
    upvotes: int,
    downvotes: int,
    lastUpdated: Stamp,
    createdAt: Stamp)

  /** The kinds a news event may be tagged with. */
  datatype EventKind = StockRise | StockDrop | MarketOpen | MarketClose | Announcement

  datatype Direction = Up | Down

  /** What a generated headline is made of. The text itself (emoji,
      `toFixed(1)` rounding) is a rendering of these values. */
  datatype Headline = Headline(direction: Direction, professorName: string, percent: Percent, price: int)

  /** A news event; `id` is the creation stamp the text id `news_<stamp>`
      is built from. */
  datatype NewsEvent = NewsEvent(
    id: Stamp,
    headline: Headline,
    professorId: Option<string>,
    eventType: EventKind,
    createdAt: Stamp)

  /** The ids of a sequence of records, in order. */
  function Ids(ps: seq<Professor>): (ids: seq<string>)
    ensures |ids| == |ps|
    ensures forall i :: 0 <= i < |ps| ==> ids[i] == ps[i].id
  {
    seq(|ps|, i requires 0 <= i < |ps| => ps[i].id)
  }
}

=== FILE: leaderboard.dfy ===
/** The client's leaderboard: records sorted by price, highest first, with
    a stable sort (JavaScript's `Array.prototype.sort` is stable), so that
    records with equal prices keep the order they had. */
module Leaderboard {
  import opened Domain
  import Seqs

  /** How many records the leaderboard shows. */
  const TopCount := 5

  predicate SortedByStockDesc(s: seq<Professor>) {
    forall i, j :: 0 <= i < j < |s| ==> s[i].currentStock >= s[j].currentStock
  }

  /** The records priced `v`, in order. */
  function WithStock(s: seq<Professor>, v: int): seq<Professor> {
    Seqs.Filter(s, (p: Professor) => p.currentStock == v)
  }

  /** `out` is a stable descending sort of `s`: sorted, and for every price
      the records with that price appear in `out` in the order they have
      in `s` (so nothing is lost, duplicated or reordered among ties). */
  ghost predicate IsStableSortOf(out: seq<Professor>, s: seq<Professor>) {
    SortedByStockDesc(out) && forall v :: WithStock(out, v) == WithStock(s, v)
  }

  /** A record priced at least as high as the head of a sorted list may
      go in front of it. */
  lemma ConsSorted(p: Professor, s: seq<Professor>)
    requires SortedByStockDesc(s)
    requires s == [] || p.currentStock >= s[0].currentStock
    ensures SortedByStockDesc([p] + s)
  {
    forall i, j | 0 <= i < j < |[p] + s|
      ensures ([p] + s)[i].currentStock >= ([p] + s)[j].currentStock
    {
      if i > 0 {
        assert ([p] + s)[i] == s[i - 1];
      }
      assert ([p] + s)[j] == s[j - 1];
    }
  }

  /** Insert `p` into a sorted sequence ahead of every record priced at
      most `p`'s price. */
  function Insert(p: Professor, s: seq<Professor>): (r: seq<Professor>)
    requires SortedByStockDesc(s)
    ensures SortedByStockDesc(r)
    ensures multiset(r) == multiset(s) + multiset{p}
    ensures r[0] == p || (s != [] && r[0] == s[0])
  {
    if s == [] || p.currentStock >= s[0].currentStock then
      ConsSorted(p, s);
      [p] + s
    else
      assert s == [s[0]] + s[1..];
      var rest := Insert(p, s[1..]);
      ConsSorted(s[0], rest);
      [s[0]] + rest
  }

  /** A record priced below every record of the list goes to its end. */
  lemma {:induction false} InsertBelowAll(p: Professor, s: seq<Professor>)
    requires SortedByStockDesc(s)
    requires forall i :: 0 <= i < |s| ==> p.currentStock < s[i].currentStock
    ensures Insert(p, s) == s + [p]
  {
    if s != [] {
      assert s == [s[0]] + s[1..];
      InsertBelowAll(p, s[1..]);
    }
  }

  /** `[...ps].sort((a, b) => b.currentStock - a.currentStock)`. */
  function SortByStock(s: seq<Professor>): (r: seq<Professor>)
    ensures SortedByStockDesc(r)
    ensures multiset(r) == multiset(s)
  {
    if s == [] then []
    else
      assert s == [s[0]] + s[1..];
      Insert(s[0], SortByStock(s[1..]))
  }

  lemma WithStockCons(p: Professor, s: seq<Professor>, v: int)
    ensures WithStock([p] + s, v) == if p.currentStock == v then [p] + WithStock(s, v) else WithStock(s, v)
  {
    assert ([p] + s)[1..] == s;
  }

  /** Among records of one price, an inserted record comes first. */
  lemma {:induction false} InsertWithStock(p: Professor, s: seq<Professor>, v: int)
    requires SortedByStockDesc(s)
    ensures WithStock(Insert(p, s), v) == if p.currentStock == v then [p] + WithStock(s, v) else WithStock(s, v)
  {
    if s == [] || p.currentStock >= s[0].currentStock {
      WithStockCons(p, s, v);
    } else {
      assert s == [s[0]] + s[1..];
      InsertWithStock(p, s[1..], v);
      WithStockCons(s[0], Insert(p, s[1..]), v);
      WithStockCons(s[0], s[1..], v);
    }
  }

  /** The sort is stable. */
  lemma {:induction false} SortIsStable(s: seq<Professor>, v: int)
    ensures WithStock(SortByStock(s), v) == WithStock(s, v)
  {
    if s != [] {
      SortIsStable(s[1..], v);
      InsertWithStock(s[0], SortByStock(s[1..]), v);
      assert s == [s[0]] + s[1..];
      WithStockCons(s[0], s[1..], v);
    }
  }

  /** A sorted sequence whose first record is priced `v` starts its
      `v`-priced records with that first record. */
  lemma HeadOfWithStock(a: seq<Professor>)
    requires a != []
    ensures WithStock(a, a[0].currentStock) == [a[0]] + WithStock(a[1..], a[0].currentStock)
    ensures forall v :: v != a[0].currentStock ==> WithStock(a, v) == WithStock(a[1..], v)
  {
    assert a == [a[0]] + a[1..];
    forall v
      ensures WithStock(a, v) == if a[0].currentStock == v then [a[0]] + WithStock(a[1..], v) else WithStock(a[1..], v)
    {
      WithStockCons(a[0], a[1..], v);
    }
  }

  /** The first record of a non-empty sorted sequence carries its highest price. */
  lemma FirstIsHighest(a: seq<Professor>, b: seq<Professor>)
    requires SortedByStockDesc(a) && SortedByStockDesc(b) && a != [] && b != []
    requires forall v :: WithStock(a, v) == WithStock(b, v)
    ensures a[0].currentStock <= b[0].currentStock
  {
    var v := a[0].currentStock;
    assert a[0] in WithStock(a, v);
    assert a[0] in WithStock(b, v);
    var j :| 0 <= j < |b| && b[j] == a[0];
  }

  /** Sequences that agree on the records of every price are permutations
      of each other. */
  lemma SameRecords(a: seq<Professor>, b: seq<Professor>)
    requires forall v :: WithStock(a, v) == WithStock(b, v)
    ensures multiset(a) == multiset(b)
    ensures |a| == |b|
  {
    forall x
      ensures multiset(a)[x] == multiset(b)[x]
    {
      Seqs.FilterCount(a, (p: Professor) => p.currentStock == x.currentStock, x);
      Seqs.FilterCount(b, (p: Professor) => p.currentStock == x.currentStock, x);
      assert WithStock(a, x.currentStock) == WithStock(b, x.currentStock);
    }
    assert multiset(a) == multiset(b);
    assert |multiset(a)| == |multiset(b)|;
  }

  /** A stable descending sort is unique: two sorted sequences that agree
      on the order of every price's records are equal. */
  lemma {:induction false} StableSortUnique(a: seq<Professor>, b: seq<Professor>)
    requires SortedByStockDesc(a) && SortedByStockDesc(b)
    requires forall v :: WithStock(a, v) == WithStock(b, v)
    ensures a == b
    decreases |a|
  {
    SameRecords(a, b);
    if a != [] {
      FirstIsHighest(a, b);
      FirstIsHighest(b, a);
      var top := a[0].currentStock;
      HeadOfWithStock(a);
      HeadOfWithStock(b);
      assert a[0] == WithStock(a, top)[0] == WithStock(b, top)[0] == b[0];
      forall v
        ensures WithStock(a[1..], v) == WithStock(b[1..], v)
      {
        if v == top {
          assert [a[0]] + WithStock(a[1..], v) == [b[0]] + WithStock(b[1..], v);
          assert WithStock(a[1..], v) == ([a[0]] + WithStock(a[1..], v))[1..];
        }
      }
      StableSortUnique(a[1..], b[1..]);
      assert a == [a[0]] + a[1..] && b == [b[0]] + b[1..];
    }
  }

  /** `SortByStock` computes exactly the stable descending sort. */
  lemma SortByStockIsTheStableSort(s: seq<Professor>, out: seq<Professor>)
    ensures IsStableSortOf(out, s) <==> out == SortByStock(s)
  {
    forall v
      ensures WithStock(SortByStock(s), v) == WithStock(s, v)
    {
      SortIsStable(s, v);
    }
    if IsStableSortOf(out, s) {
      StableSortUnique(out, SortByStock(s));
    }
  }

  /** `.slice(0, 5)` of the sorted copy. */
  function TopProfessors(ps: seq<Professor>): seq<Professor> {
    var sorted := SortByStock(ps);
    sorted[..if |sorted| < TopCount then |sorted| else TopCount]
  }

  /** The sort neither adds nor drops records. */
  lemma SortKeepsLength(ps: seq<Professor>)
    ensures |SortByStock(ps)| == |ps|
  {
    assert |multiset(SortByStock(ps))| == |multiset(ps)|;
  }

  /** The leaderboard holds `min(5, n)` records, highest price first, and
      is the start of the stable descending sort. */
  lemma TopProfessorsSpec(ps: seq<Professor>)
    ensures var t := TopProfessors(ps);
            && |t| == (if |ps| < TopCount then |ps| else TopCount)
            && SortedByStockDesc(t)
            && (forall out :: IsStableSortOf(out, ps) ==> t <= out)
  {
    SortKeepsLength(ps);
    var t := TopProfessors(ps);
    forall out | IsStableSortOf(out, ps)
      ensures t <= out
    {
      SortByStockIsTheStableSort(ps, out);
    }
  }

  /** No record left off the leaderboard is priced above a record on it,
      and together they are the records given. */
  lemma TopProfessorsDominateRest(ps: seq<Professor>)
    ensures var sorted := SortByStock(ps);
            var t := TopProfessors(ps);
            var rest := sorted[|t|..];
            && multiset(t) + multiset(rest) == multiset(ps)
            && forall i, j :: 0 <= i < |t| && 0 <= j < |rest| ==> t[i].currentStock >= rest[j].currentStock
  {
    var sorted := SortByStock(ps);
    SplitSorted(sorted, |TopProfessors(ps)|);
  }

  /** Cutting a sorted list in two keeps every record, and every record
      of the front part is priced at least as high as any of the back. */
  lemma SplitSorted(sorted: seq<Professor>, k: nat)
    requires SortedByStockDesc(sorted) && k <= |sorted|
    ensures multiset(sorted[..k]) + multiset(sorted[k..]) == multiset(sorted)
    ensures forall i, j :: 0 <= i < k && 0 <= j < |sorted[k..]| ==> sorted[..k][i].currentStock >= sorted[k..][j].currentStock
  {
    assert sorted == sorted[..k] + sorted[k..];
    forall i, j | 0 <= i < k && 0 <= j < |sorted[k..]|
      ensures sorted[..k][i].currentStock >= sorted[k..][j].currentStock
    {
      assert sorted[..k][i] == sorted[i] && sorted[k..][j] == sorted[k + j];
    }
  }
}

=== FILE: ledger.dfy ===
/** The backend's professor ledger: the in-memory array of stock records,
    its seed, and what a single vote does to one record. */
module Ledger {
  import opened Wrappers
  import opened Percentages
  import opened Domain
  import Seqs

  datatype VoteKind = Upvote | Downvote

  /** The request body's `voteType`; `None` when the field is absent. Only
      the exact strings `upvote` and `downvote` are accepted. */
  function ParseVoteType(v: Option<string>): (k: Option<VoteKind>)
    ensures k == Some(Upvote) <==> v == Some("upvote")
    ensures k == Some(Downvote) <==> v == Some("downvote")
    ensures k.None? <==> v != Some("upvote") && v != Some("downvote")
  {
    if v == Some("upvote") then Some(Upvote)
    else if v == Some("downvote") then Some(Downvote)
    else None
  }

  /** What every record of the ledger keeps: the tallies add up, the daily
      change is the distance from the starting price, and the percentage
      is derived from that change. */
  predicate Consistent(p: Professor) {
    && p.upvotes + p.downvotes == p.totalVotes
    && p.dailyChange == p.currentStock - p.startingStock
    && p.dailyChangePercent == PercentOf(p.dailyChange, p.startingStock)
  }

  predicate LedgerConsistent(l: seq<Professor>) {
    forall i :: 0 <= i < |l| ==> Consistent(l[i])
  }

  /** The creation stamp `new Date('2024-01-01')` of every seed record. */
  const SeedCreatedAt: Stamp := 1704067200000

  /** `MOCK_PROFESSORS`, with `boot` the time the server started. */
  function Seed(boot: Stamp): seq<Professor> {
    [ Professor("prof-1", "Dr. Sarah Smith", "Computer Science", ["CS 101", "CS 201"],
                95, 100, -5, Finite(-5.0), 23, 9, 14, boot, SeedCreatedAt),
      Professor("prof-2", "Prof. Michael Johnson", "Mathematics", ["MATH 201", "MATH 301"],
                108, 100, 8, Finite(8.0), 31, 22, 9, boot, SeedCreatedAt),
      Professor("prof-3", "Dr. Emily Williams", "English", ["ENG 102", "ENG 205"],
                102, 100, 2, Finite(2.0), 18, 11, 7, boot, SeedCreatedAt) ]
  }

  /** The seed already keeps the ledger invariant, its ids are distinct and
      every record starts from 100. */
  lemma SeedIsConsistent(boot: Stamp)
    ensures LedgerConsistent(Seed(boot))
    ensures Seqs.NoDuplicates(Ids(Seed(boot)))
    ensures forall i :: 0 <= i < |Seed(boot)| ==> Seed(boot)[i].startingStock == 100
  {
    var l := Seed(boot);
    assert PercentOf(-5, 100) == Finite(-5.0);
    assert PercentOf(8, 100) == Finite(8.0);
    assert PercentOf(2, 100) == Finite(2.0);
    assert Ids(l) == ["prof-1", "prof-2", "prof-3"];
  }

  /** `MOCK_PROFESSORS.find(p => p.id === id)`: the first record with that
      id, as an index. */
  function FindIndex(l: seq<Professor>, id: string): (r: Option<nat>)
    ensures r.Some? ==> r.value < |l| && l[r.value].id == id
    ensures r.Some? ==> forall j :: 0 <= j < r.value ==> l[j].id != id
    ensures r.None? ==> forall j :: 0 <= j < |l| ==> l[j].id != id
  {
    if l == [] then None
    else if l[0].id == id then Some(0)
    else match FindIndex(l[1..], id)
      case None => None
      case Some(k) => Some(k + 1)
  }

  /** One vote applied to one record at time `now`. */
  function ApplyVote(p: Professor, kind: VoteKind, now: Stamp): (q: Professor)
    ensures kind == Upvote ==>
              q.currentStock == p.currentStock + 1 && q.dailyChange == p.dailyChange + 1
              && q.upvotes == p.upvotes + 1 && q.downvotes == p.downvotes
    ensures kind == Downvote ==>
              q.currentStock == p.currentStock - 1 && q.dailyChange == p.dailyChange - 1
              && q.downvotes == p.downvotes + 1 && q.upvotes == p.upvotes
    ensures q.totalVotes == p.totalVotes + 1
    ensures q.dailyChangePercent == PercentOf(q.currentStock - q.startingStock, q.startingStock)
    ensures q.lastUpdated == now
    ensures q.id == p.id && q.name == p.name && q.department == p.department && q.courses == p.courses
    ensures q.startingStock == p.startingStock && q.createdAt == p.createdAt
  {
    var delta := if kind == Upvote then 1 else -1;
    var stock := p.currentStock + delta;
    p.(currentStock := stock,
       upvotes := if kind == Upvote then p.upvotes + 1 else p.upvotes,
       downvotes := if kind == Downvote then p.downvotes + 1 else p.downvotes,
       dailyChange := p.dailyChange + delta,
       totalVotes := p.totalVotes + 1,
       dailyChangePercent := PercentOf(stock - p.startingStock, p.startingStock),
       lastUpdated := now)
  }

  /** A vote keeps the record invariant. */
  lemma VotePreservesConsistency(p: Professor, kind: VoteKind, now: Stamp)
    requires Consistent(p)
    ensures Consistent(ApplyVote(p, kind, now))
  {
  }

  /** An upvote and a downvote cancel out in price, change and percentage,
      while both still count as votes. */
  lemma UpvoteDownvoteCancel(p: Professor, t1: Stamp, t2: Stamp)
    requires Consistent(p)
    ensures var q := ApplyVote(ApplyVote(p, Upvote, t1), Downvote, t2);
            && q.currentStock == p.currentStock
            && q.dailyChange == p.dailyChange
            && q.dailyChangePercent == p.dailyChangePercent
            && q.totalVotes == p.totalVotes + 2
            && q.upvotes == p.upvotes + 1 && q.downvotes == p.downvotes + 1
  {
  }
}

=== FILE: market_clock.dfy ===
/** The market clock of the backend: a process-wide record saying whether
    voting is open, recomputed from the local hour of day. Only the hour
    is compared; minutes never matter. */
module MarketClock {
  import opened Wrappers

  type HourOfDay = h: int | 0 <= h < 24
  type MinuteOfHour = m: int | 0 <= m < 60

  /** A local calendar day (days since some epoch) and an hour, at minute 0. */
  datatype Instant = Instant(day: int, hour: int)

  /** A JavaScript `Date`: a point in time, or the invalid date that
      `setHours(NaN)` produces. */
  datatype Timestamp = At(instant: Instant) | InvalidDate

  datatype MarketHours = MarketHours(
    isOpen: bool,
    openTime: string,
    closeTime: string,
    timezone: string,
    nextOpenTime: Option<Timestamp>)

  /** The configuration the server starts with. */
  const Initial := MarketHours(false, "08:00", "21:00", "America/New_York", None)

  /** `s.split(':')[0]`: the text before the first colon, or all of `s`. */
  function BeforeColon(s: string): (h: string)
    ensures h <= s
    ensures ':' !in h
    ensures |h| < |s| ==> s[|h|] == ':'
  {
    if s == [] || s[0] == ':' then [] else [s[0]] + BeforeColon(s[1..])
  }

  predicate IsDigit(c: char) {
    '0' <= c <= '9'
  }

  /** The longest prefix of `s` made of decimal digits. */
  function LeadingDigits(s: string): (d: string)
    ensures d <= s
    ensures forall i :: 0 <= i < |d| ==> IsDigit(d[i])
    ensures |d| < |s| ==> !IsDigit(s[|d|])
  {
    if s == [] || !IsDigit(s[0]) then [] else [s[0]] + LeadingDigits(s[1..])
  }

  /** The value of a string of decimal digits, most significant first. */
  function DigitsValue(d: string): nat
    requires forall i :: 0 <= i < |d| ==> IsDigit(d[i])
  {
    if d == [] then 0
    else
      var last := d[|d| - 1];
      assert IsDigit(last);
      DigitsValue(d[..|d| - 1]) * 10 + (last as int - '0' as int)
  }

  /** `parseInt(s)` on an optional sign followed by decimal digits; `None`
      is the `NaN` it returns when no digit follows the sign. */
  function ParseInt(s: string): (r: Option<int>)
    ensures r.None? <==> LeadingDigits(if s != [] && (s[0] == '-' || s[0] == '+') then s[1..] else s) == []
    ensures r.Some? && s != [] && s[0] == '-' ==> r.value <= 0
    ensures r.Some? && !(s != [] && s[0] == '-') ==> r.value >= 0
  {
    var negative := s != [] && s[0] == '-';
    var unsigned := if s != [] && (s[0] == '-' || s[0] == '+') then s[1..] else s;
    var digits := LeadingDigits(unsigned);
    if digits == [] then None
    else if negative then Some(0 - DigitsValue(digits))
    else Some(DigitsValue(digits))
  }

  /** A run of digits followed by anything that does not start with a
      digit is read up to its end. */
  lemma {:induction false} LeadingDigitsOfDigits(d: string, rest: string)
    requires forall i :: 0 <= i < |d| ==> IsDigit(d[i])
    requires rest == [] || !IsDigit(rest[0])
    ensures LeadingDigits(d + rest) == d
  {
    if d != [] {
      assert (d + rest)[0] == d[0];
      assert (d + rest)[1..] == d[1..] + rest;
      LeadingDigitsOfDigits(d[1..], rest);
    } else {
      assert d + rest == rest;
    }
  }

  /** `parseInt` returns the value of the leading digits and ignores
      whatever follows them. */
  lemma ParseIntValue(d: string, rest: string)
    requires d != [] && forall i :: 0 <= i < |d| ==> IsDigit(d[i])
    requires rest == [] || !IsDigit(rest[0])
    ensures ParseInt(d + rest) == Some(DigitsValue(d))
  {
    LeadingDigitsOfDigits(d, rest);
    assert (d + rest)[0] == d[0];
  }

  /** After a sign, the value of the digits is negated for `-` and kept
      for `+`. */
  lemma ParseIntSignedValue(sign: char, d: string, rest: string)
    requires sign == '-' || sign == '+'
    requires d != [] && forall i :: 0 <= i < |d| ==> IsDigit(d[i])
    requires rest == [] || !IsDigit(rest[0])
    ensures ParseInt([sign] + (d + rest)) == Some(if sign == '-' then 0 - DigitsValue(d) else DigitsValue(d))
  {
    LeadingDigitsOfDigits(d, rest);
    ParseAfterSign(sign, d + rest, d);
  }

  lemma ParseAfterSign(sign: char, u: string, d: string)
    requires sign == '-' || sign == '+'
    requires d != [] && forall i :: 0 <= i < |d| ==> IsDigit(d[i])
    requires LeadingDigits(u) == d
    ensures ParseInt([sign] + u) == Some(if sign == '-' then 0 - DigitsValue(d) else DigitsValue(d))
  {
    assert ([sign] + u)[0] == sign && ([sign] + u)[1..] == u;
  }

  /** The hour of an `HH:MM` setting: `parseInt(time.split(':')[0])`. */
  function ParseHour(time: string): Option<int> {
    ParseInt(BeforeColon(time))
  }

  /** `Date.setHours(h, 0, 0, 0)` on a date of day `day`: hours outside
      0..23 carry into neighbouring days. */
  function AtHourOn(day: int, h: int): (t: Instant)
    ensures 0 <= t.hour < 24
    ensures t.day * 24 + t.hour == day * 24 + h
  {
    Instant(day + h / 24, h % 24)
  }

  /** An hour of the day needs no carrying. */
  lemma AtHourOnWithinDay(day: int, h: int)
    requires 0 <= h < 24
    ensures AtHourOn(day, h) == Instant(day, h)
  {
  }

  /** Whether hour `h` lies in the window `[open, close)` of the setting;
      a setting that does not parse (`NaN`) never opens. */
  predicate OpenAt(m: MarketHours, h: int) {
    var open := ParseHour(m.openTime);
    var close := ParseHour(m.closeTime);
    open.Some? && close.Some? && open.value <= h < close.value
  }

  /** `updateMarketStatus` run on day `today` at `hour:minute`. */
  function UpdateMarketStatus(m: MarketHours, today: int, hour: HourOfDay, minute: MinuteOfHour): (m': MarketHours)
    ensures m'.isOpen <==> OpenAt(m, hour)
    ensures m'.openTime == m.openTime && m'.closeTime == m.closeTime && m'.timezone == m.timezone
    ensures m'.isOpen ==> m'.nextOpenTime == m.nextOpenTime
    ensures !m'.isOpen ==> m'.nextOpenTime.Some?
    ensures !m'.isOpen && ParseHour(m.openTime).Some? && hour < ParseHour(m.openTime).value ==>
              m'.nextOpenTime == Some(At(AtHourOn(today, ParseHour(m.openTime).value)))
    ensures !m'.isOpen && ParseHour(m.openTime).Some? && hour >= ParseHour(m.openTime).value ==>
              m'.nextOpenTime == Some(At(AtHourOn(today + 1, ParseHour(m.openTime).value)))
    ensures ParseHour(m.openTime).None? ==> m'.nextOpenTime == Some(InvalidDate)
  {
    var openHour := ParseHour(m.openTime);
    var isOpen := OpenAt(m, hour);
    if !isOpen && openHour.Some? && hour < openHour.value then
      m.(isOpen := false, nextOpenTime := Some(At(AtHourOn(today, openHour.value))))
    else if !isOpen then
      var next := if openHour.Some? then At(AtHourOn(today + 1, openHour.value)) else InvalidDate;
      m.(isOpen := false, nextOpenTime := Some(next))
    else
      m.(isOpen := true)
  }

  /** `a` is strictly earlier than `b`. */
  predicate Before(a: Instant, b: Instant) {
    a.day < b.day || (a.day == b.day && a.hour < b.hour)
  }

  /** The status never depends on the minute. */
  lemma MinutesIgnored(m: MarketHours, today: int, hour: HourOfDay, m1: MinuteOfHour, m2: MinuteOfHour)
    ensures UpdateMarketStatus(m, today, hour, m1) == UpdateMarketStatus(m, today, hour, m2)
  {
  }

  /** With a sensible window `0 <= open < close <= 24`, a closed market's
      `nextOpenTime` is the next opening: it lies after now, the market is
      open at that hour, and it is closed at every whole hour in between. */
  lemma NextOpenIsNextOpening(m: MarketHours, today: int, hour: HourOfDay, minute: MinuteOfHour)
    requires ParseHour(m.openTime).Some? && ParseHour(m.closeTime).Some?
    requires 0 <= ParseHour(m.openTime).value < ParseHour(m.closeTime).value <= 24
    requires !UpdateMarketStatus(m, today, hour, minute).isOpen
    ensures var next := UpdateMarketStatus(m, today, hour, minute).nextOpenTime;
            && next.Some? && next.value.At?
            && Before(Instant(today, hour), next.value.instant)
            && OpenAt(m, next.value.instant.hour)
            && forall t: Instant :: 0 <= t.hour < 24 && Before(Instant(today, hour), t) && Before(t, next.value.instant) ==> !OpenAt(m, t.hour)
  {
    var open := ParseHour(m.openTime).value;
    var close := ParseHour(m.closeTime).value;
    var nextDay := if hour < open then today else today + 1;
    AtHourOnWithinDay(nextDay, open);
    assert UpdateMarketStatus(m, today, hour, minute).nextOpenTime == Some(At(Instant(nextDay, open)));
    forall t: Instant | 0 <= t.hour < 24 && Before(Instant(today, hour), t) && Before(t, Instant(nextDay, open))
      ensures !OpenAt(m, t.hour)
    {
      assert t.hour < open || t.hour >= close;
    }
  }

  /** Two-digit zero-padded rendering of `0 <= n < 100`. */
  function TwoDigits(n: int): (s: string)
    requires 0 <= n < 100
    ensures |s| == 2 && IsDigit(s[0]) && IsDigit(s[1])
  {
    ['0' + (n / 10) as char, '0' + (n % 10) as char]
  }

  /** Parsing the hour of a zero-padded `HH:MM` setting recovers `HH`. */
  lemma ParseHourOfPadded(h: int, min: int)
    requires 0 <= h < 100 && 0 <= min < 100
    ensures ParseHour(TwoDigits(h) + ":" + TwoDigits(min)) == Some(h)
  {
    var s := TwoDigits(h) + ":" + TwoDigits(min);
    var hh := TwoDigits(h);
    assert s[0] == hh[0] && s[1] == hh[1] && s[2] == ':';
    assert BeforeColon(s[2..]) == [];
    assert BeforeColon(s[1..]) == [hh[1]] + BeforeColon(s[2..]);
    assert BeforeColon(s) == hh;
    assert LeadingDigits(hh[2..]) == [];
    assert LeadingDigits(hh[1..]) == [hh[1]];
    assert LeadingDigits(hh) == hh;
    assert hh[..1] == [hh[0]];
    assert DigitsValue(hh[..1][..0]) == 0;
    assert DigitsValue(hh) == h;
  }

  /** The server's own setting opens at 08:00 and closes at 21:00. */
  lemma ConfiguredHours()
    ensures ParseHour(Initial.openTime) == Some(8)
    ensures ParseHour(Initial.closeTime) == Some(21)
  {
    assert Initial.openTime == TwoDigits(8) + ":" + TwoDigits(0);
    assert Initial.closeTime == TwoDigits(21) + ":" + TwoDigits(0);
    ParseHourOfPadded(8, 0);
    ParseHourOfPadded(21, 0);
  }

  /** A window whose opening hour lies within the day: open exactly
      inside it, and when closed the next opening is at the opening hour
      today or tomorrow. */
  lemma StatusForWindow(m: MarketHours, today: int, hour: HourOfDay, minute: MinuteOfHour, open: int, close: int)
    requires ParseHour(m.openTime) == Some(open) && ParseHour(m.closeTime) == Some(close)
    requires 0 <= open < 24
    ensures UpdateMarketStatus(m, today, hour, minute).isOpen <==> open <= hour < close
    ensures hour < open ==> UpdateMarketStatus(m, today, hour, minute).nextOpenTime == Some(At(Instant(today, open)))
    ensures hour >= open && hour >= close ==>
              UpdateMarketStatus(m, today, hour, minute).nextOpenTime == Some(At(Instant(today + 1, open)))
  {
    AtHourOnWithinDay(today, open);
    AtHourOnWithinDay(today + 1, open);
  }

  /** So the server is open from 8 to 21 o'clock and, when closed, next
      opens at 8 o'clock today or tomorrow. */
  lemma ConfiguredWindow(today: int, hour: HourOfDay, minute: MinuteOfHour)
    ensures UpdateMarketStatus(Initial, today, hour, minute).isOpen <==> 8 <= hour < 21
    ensures hour < 8 ==> UpdateMarketStatus(Initial, today, hour, minute).nextOpenTime == Some(At(Instant(today, 8)))
    ensures hour >= 21 ==> UpdateMarketStatus(Initial, today, hour, minute).nextOpenTime == Some(At(Instant(today + 1, 8)))
  {
    ConfiguredHours();
    StatusForWindow(Initial, today, hour, minute, 8, 21);
  }
}

=== FILE: mirror_sync.dfy ===
/** How the client store follows the server: which messages a session is
    delivered for a vote, and what the store looks like after handling
    them. The client listens for `professors_data`, `stock_update`,
    `news_event` and `market_status`; it has no listener for
    `professor_update`. */
module MirrorSync {
  import opened Wrappers
  import opened Percentages
  import opened Domain
  import opened Ledger
  import opened Sessions
  import opened Server
  import opened AppStore
  import Seqs

  /** The store after its listener for `m` has run at client time `now`. */
  function Receive(st: AppStore.State, m: Message, now: Stamp): (r: AppStore.State)
    ensures m.ProfessorUpdate? ==> r == st
    ensures m.StockUpdate? ==> r == UpdateProfessorStock(st, m.data.professorId, m.data.newPrice, m.data.change, now)
    ensures m.NewsEventMessage? ==> r == AddNewsEvent(st, m.event)
    ensures m.ProfessorsData? ==> r == SetProfessors(st, m.professors)
    ensures m.MarketStatus? ==> r == SetMarketHours(st, m.hours)
  {
    match m
    case MarketStatus(hours) => SetMarketHours(st, hours)
    case ProfessorsData(ps) => SetProfessors(st, ps)
    case StockUpdate(data, _) => UpdateProfessorStock(st, data.professorId, data.newPrice, data.change, now)
    case ProfessorUpdate(_) => st
    case NewsEventMessage(e, _) => AddNewsEvent(st, e)
  }

  /** The store after handling `ms` in order. */
  function ReceiveAll(st: AppStore.State, ms: seq<Message>, now: Stamp): AppStore.State
    decreases |ms|
  {
    if ms == [] then st else ReceiveAll(Receive(st, ms[0], now), ms[1..], now)
  }

  /** A client that connects is handed the server's market status and
      ledger: after it handles what it was sent, its store shows both. */
  lemma ConnectSyncsClient(srv: Server.State, s: SessionId, client: AppStore.State, now: Stamp)
    ensures var r := OnConnect(srv, s);
            var synced := ReceiveAll(client, Delivered(r.1, s), now);
            && synced.marketHours == srv.market
            && synced.professors == srv.ledger
            && synced.myProfessors == MyProfessorsOf(client.user, srv.ledger)
  {
    var e := OnConnect(srv, s).1;
    var ms := [MarketStatus(srv.market), ProfessorsData(srv.ledger)];
    assert Delivered(e, s) == ms by {
      assert Delivered(e[1..], s) == [ProfessorsData(srv.ledger)] by {
        assert e[1..][1..] == [];
      }
    }
    var c1 := Receive(client, ms[0], now);
    assert ReceiveAll(client, ms, now) == ReceiveAll(c1, ms[1..], now);
    assert ReceiveAll(c1, ms[1..], now) == ReceiveAll(Receive(c1, ms[1], now), [], now) by {
      assert ms[1..][1..] == [];
    }
  }

  /** The messages among `e` that reach session `s`, in emission order. */
  function Delivered(e: seq<Emission>, s: SessionId): (ms: seq<Message>)
    ensures |ms| <= |e|
    ensures forall i :: 0 <= i < |e| && s in e[i].audience ==> e[i].message in ms
    ensures forall m :: m in ms ==> exists i :: 0 <= i < |e| && s in e[i].audience && e[i].message == m
  {
    if e == [] then []
    else
      var rest := Delivered(e[1..], s);
      assert forall i :: 1 <= i < |e| ==> e[i] == e[1..][i - 1];
      if s in e[0].audience then [e[0].message] + rest else rest
  }

  /** Nothing is delivered to a session outside every audience. */
  lemma {:induction false} DeliveredToNobody(e: seq<Emission>, s: SessionId)
    requires forall i :: 0 <= i < |e| ==> s !in e[i].audience
    ensures Delivered(e, s) == []
  {
    if e != [] {
      assert forall i :: 0 <= i < |e[1..]| ==> e[1..][i] == e[i + 1];
      DeliveredToNobody(e[1..], s);
    }
  }

  /** A connected session is delivered, for a successful vote, the stock
      update first; the record next if and only if it subscribed to the
      professor; and the news event last if and only if the move is
      significant. There is no other stock update. */
  lemma SessionDeliveries(st: Server.State, id: string, voteType: Option<string>, now: Stamp, s: SessionId)
    requires SubmitVote(st, id, voteType, now).Ok?
    requires s in st.sessions
    ensures var out := SubmitVote(st, id, voteType, now).value;
            var d := Delivered(out.emissions, s);
            && |d| == 1 + (if Subscribed(st.sessions, s, id) then 1 else 0)
                        + (if Significant(out.professor.dailyChangePercent) then 1 else 0)
            && d[0] == out.emissions[0].message
            && (Subscribed(st.sessions, s, id) ==> d[1] == ProfessorUpdate(out.professor))
            && (Significant(out.professor.dailyChangePercent) ==> d[|d| - 1] == out.emissions[2].message)
            && forall i :: 1 <= i < |d| ==> !d[i].StockUpdate?
  {
    var out := SubmitVote(st, id, voteType, now).value;
    VoteBroadcasts(st, id, voteType, now);
    DeliveredShape(out.emissions, s, Subscribed(st.sessions, s, id));
  }

  /** What one session is delivered of a vote's two or three emissions,
      when the first and any third reach it and the second reaches it
      exactly when `sub` holds. */
  lemma DeliveredShape(e: seq<Emission>, s: SessionId, sub: bool)
    requires |e| == 2 || |e| == 3
    requires s in e[0].audience && (|e| == 3 ==> s in e[2].audience)
    requires s in e[1].audience <==> sub
    ensures var d := Delivered(e, s);
            && |d| == 1 + (if sub then 1 else 0) + (if |e| == 3 then 1 else 0)
            && d[0] == e[0].message
            && (sub ==> d[1] == e[1].message)
            && (|e| == 3 ==> d[|d| - 1] == e[2].message)
            && forall i :: 1 <= i < |d| ==> d[i] == e[1].message || (|e| == 3 && d[i] == e[2].message)
  {
    assert e[1..][1..] == e[2..];
    if |e| == 3 {
      assert e[2..][1..] == [];
    } else {
      assert e[2..] == [];
    }
  }

  /** A session that is not connected is delivered nothing. */
  lemma DisconnectedHearsNothing(st: Server.State, id: string, voteType: Option<string>, now: Stamp, s: SessionId)
    requires SubmitVote(st, id, voteType, now).Ok?
    requires s !in st.sessions
    ensures Delivered(SubmitVote(st, id, voteType, now).value.emissions, s) == []
  {
    VoteBroadcasts(st, id, voteType, now);
    DeliveredToNobody(SubmitVote(st, id, voteType, now).value.emissions, s);
  }

  /** A mirror holding the server's ledger follows a vote's stock update:
      every other record stays equal to the server's, and the voted record
      agrees with the server's on price, change and percentage, but keeps
      its old tallies (the update's volume is not applied) and gets the
      client's own time stamp. */
  lemma MirrorFollowsStockUpdate(client: AppStore.State, st: Server.State, id: string, voteType: Option<string>, now: Stamp, clientNow: Stamp)
    requires client.professors == st.ledger
    requires LedgerConsistent(st.ledger) && Seqs.NoDuplicates(Ids(st.ledger))
    requires SubmitVote(st, id, voteType, now).Ok?
    ensures var out := SubmitVote(st, id, voteType, now).value;
            var k := FindIndex(st.ledger, id).value;
            var mirror := Receive(client, out.emissions[0].message, clientNow).professors;
            && |mirror| == |out.state.ledger|
            && (forall j :: 0 <= j < |mirror| && j != k ==> mirror[j] == out.state.ledger[j])
            && mirror[k] == out.state.ledger[k].(totalVotes := st.ledger[k].totalVotes,
                                                 upvotes := st.ledger[k].upvotes,
                                                 downvotes := st.ledger[k].downvotes,
                                                 lastUpdated := clientNow)
  {
    var out := SubmitVote(st, id, voteType, now).value;
    var k := FindIndex(st.ledger, id).value;
    VoteBroadcasts(st, id, voteType, now);
    VoteKeepsLedgerConsistent(st, id, voteType, now);
    var q := out.state.ledger[k];
    assert Consistent(q);
    forall j | 0 <= j < |st.ledger| && j != k
      ensures st.ledger[j].id != id
    {
      assert Ids(st.ledger)[j] != Ids(st.ledger)[k];
    }
  }

  /** A store handling a stock update, then possibly a record it does not
      listen for, then possibly a news event, keeps its leaderboard and
      own-professor views and gains exactly that news event. */
  lemma ReceiveVoteShape(client: AppStore.State, d: seq<Message>, sub: bool, sig: bool, now: Stamp)
    requires |d| == 1 + (if sub then 1 else 0) + (if sig then 1 else 0)
    requires d[0].StockUpdate?
    requires sub ==> d[1].ProfessorUpdate?
    requires sig ==> d[|d| - 1].NewsEventMessage?
    ensures var after := ReceiveAll(client, d, now);
            && after.topProfessors == client.topProfessors
            && after.myProfessors == client.myProfessors
            && after.newsEvents == (if sig then AddNewsEvent(client, d[|d| - 1].event).newsEvents else client.newsEvents)
  {
    var c1 := Receive(client, d[0], now);
    assert c1.topProfessors == client.topProfessors && c1.myProfessors == client.myProfessors;
    assert c1.newsEvents == client.newsEvents;
    var tail := if sub then d[2..] else d[1..];
    assert ReceiveAll(client, d, now) == ReceiveAll(c1, tail, now) by {
      if sub {
        assert ReceiveAll(c1, d[1..], now) == ReceiveAll(Receive(c1, d[1], now), d[2..], now);
      }
    }
    if sig {
      assert tail == [d[|d| - 1]];
      assert ReceiveAll(c1, tail, now) == ReceiveAll(AddNewsEvent(c1, d[|d| - 1].event), [], now);
    } else {
      assert tail == [];
    }
  }

  /** After a session's deliveries for a vote, the store's news feed has
      gained the announcement exactly when the move was significant, and
      its leaderboard and own-professor views are those it had before. */
  lemma ClientAfterVote(client: AppStore.State, st: Server.State, id: string, voteType: Option<string>, now: Stamp, s: SessionId, clientNow: Stamp)
    requires SubmitVote(st, id, voteType, now).Ok?
    requires s in st.sessions
    ensures var out := SubmitVote(st, id, voteType, now).value;
            var after := ReceiveAll(client, Delivered(out.emissions, s), clientNow);
            && after.topProfessors == client.topProfessors
            && after.myProfessors == client.myProfessors
            && (Significant(out.professor.dailyChangePercent) ==>
                  && |out.emissions| == 3
                  && out.emissions[2].message.NewsEventMessage?
                  && after.newsEvents == AddNewsEvent(client, out.emissions[2].message.event).newsEvents
                  && after.newsEvents[0].professorId == Some(id))
            && (!Significant(out.professor.dailyChangePercent) ==> after.newsEvents == client.newsEvents)
  {
    var out := SubmitVote(st, id, voteType, now).value;
    var d := Delivered(out.emissions, s);
    var sub := Subscribed(st.sessions, s, id);
    var sig := Significant(out.professor.dailyChangePercent);
    SessionDeliveries(st, id, voteType, now, s);
    VoteBroadcasts(st, id, voteType, now);
    ReceiveVoteShape(client, d, sub, sig, clientNow);
  }
}

=== FILE: percentages.dfy ===
/** The percentage `num / den * 100`, which the source computes as a
    JavaScript number. Both the server (`dailyChangePercent` after a vote)
    and the client (after a stock-update patch) compute it from integers;
    the model keeps the value exact and keeps the non-finite results a
    zero `den` produces. */
module Percentages {

  /** The value of `num / den * 100`: an exact rational, or one of
      JavaScript's infinities or `NaN` when `den` is zero. */
  datatype Percent = Finite(value: real) | PositiveInfinity | NegativeInfinity | NotANumber

  /** `(num / den) * 100` with JavaScript's division: a zero divisor gives
      an infinity of the numerator's sign, or `NaN` for `0 / 0`. */
  function PercentOf(num: int, den: int): (p: Percent)
    ensures den != 0 ==> p.Finite? && p.value * den as real == (100 * num) as real
    ensures den == 0 && num > 0 ==> p == PositiveInfinity
    ensures den == 0 && num < 0 ==> p == NegativeInfinity
    ensures den == 0 && num == 0 ==> p == NotANumber
  {
    if den == 0 then
      if num > 0 then PositiveInfinity
      else if num < 0 then NegativeInfinity
      else NotANumber
    else
      var q := num as real / den as real;
      assert q * den as real == num as real;
      Finite(q * 100.0)
  }

  /** `Math.abs(p) >= 10`; `NaN` compares false with everything. */
  predicate Significant(p: Percent) {
    match p
    case Finite(v) => v >= 10.0 || v <= -10.0
    case PositiveInfinity => true
    case NegativeInfinity => true
    case NotANumber => false
  }

  /** `p > 0`. */
  predicate IsPositive(p: Percent) {
    match p
    case Finite(v) => v > 0.0
    case PositiveInfinity => true
    case NegativeInfinity => false
    case NotANumber => false
  }

  /** Multiplying by a positive number keeps the order. */
  lemma ScaleKeepsOrder(a: real, b: real, d: real)
    requires d > 0.0
    ensures a >= b <==> a * d >= b * d
  {
    assert a * d - b * d == (a - b) * d;
  }

  /** Integers compare as their real values do. */
  lemma CastKeepsOrder(a: int, b: int)
    ensures a >= b <==> a as real >= b as real
  {
  }

  /** With a positive base, a change is significant exactly when it is at
      least a tenth of the base, which cross-multiplies the float test
      `|num / den * 100| >= 10` into integers. */
  lemma SignificantIff(num: int, den: int)
    requires den > 0
    ensures Significant(PercentOf(num, den)) <==> 10 * num >= den || 10 * num <= -den
  {
    var v := PercentOf(num, den).value;
    var d := den as real;
    assert v * d == (100 * num) as real;
    ScaleKeepsOrder(v, 10.0, d);
    assert 10.0 * d == (10 * den) as real;
    CastKeepsOrder(100 * num, 10 * den);
    ScaleKeepsOrder(-10.0, v, d);
    assert -10.0 * d == (-10 * den) as real;
    CastKeepsOrder(-10 * den, 100 * num);
    assert v >= 10.0 <==> 100 * num >= 10 * den;
    assert v <= -10.0 <==> -10 * den >= 100 * num;
    assert Significant(PercentOf(num, den)) <==> v >= 10.0 || v <= -10.0;
  }

  /** With a positive base, the percentage is positive exactly when the
      change is. */
  lemma PositiveIff(num: int, den: int)
    requires den > 0
    ensures IsPositive(PercentOf(num, den)) <==> num > 0
  {
    var v := PercentOf(num, den).value;
    var d := den as real;
    assert v * d == (100 * num) as real;
    ScaleKeepsOrder(0.0, v, d);
  }
}

=== FILE: registration.dfy ===
/** The registration screen's checks, run in order; the first that fails
    is the error shown, and passing all of them moves on to e-mail
    verification with the address as typed. */
module Registration {
  import opened Wrappers

  datatype RegisterError = MissingFields | InvalidEmail | PasswordTooShort | PasswordMismatch

  const MinPasswordLength := 6
  const SchoolSuffix := ".edu"

  /** `s.endsWith(suffix)`. */
  predicate EndsWith(s: string, suffix: string) {
    |suffix| <= |s| && s[|s| - |suffix|..] == suffix
  }

  /** `email.includes('@') && email.endsWith('.edu')`. */
  predicate IsSchoolEmail(email: string) {
    '@' in email && EndsWith(email, SchoolSuffix)
  }

  /** `handleRegister`'s validation. */
  function ValidateRegistration(email: string, password: string, confirm: string): (r: Result<string, RegisterError>)
    ensures r == Err(MissingFields) <==> email == [] || password == [] || confirm == []
    ensures r == Err(InvalidEmail) <==>
              email != [] && password != [] && confirm != [] && !IsSchoolEmail(email)
    ensures r == Err(PasswordTooShort) <==>
              email != [] && password != [] && confirm != [] && IsSchoolEmail(email)
              && |password| < MinPasswordLength
    ensures r == Err(PasswordMismatch) <==>
              email != [] && password != [] && confirm != [] && IsSchoolEmail(email)
              && |password| >= MinPasswordLength && password != confirm
    ensures r.Ok? <==>
              IsSchoolEmail(email) && |password| >= MinPasswordLength && password == confirm
    ensures r.Ok? ==> r.value == email
  {
    if email == [] || password == [] || confirm == [] then Err(MissingFields)
    else if !IsSchoolEmail(email) then Err(InvalidEmail)
    else if |password| < MinPasswordLength then Err(PasswordTooShort)
    else if password != confirm then Err(PasswordMismatch)
    else Ok(email)
  }

  /** An accepted address has its `@` before the `.edu` suffix, so it is
      at least five characters long. */
  lemma AcceptedEmailShape(email: string, password: string, confirm: string)
    requires ValidateRegistration(email, password, confirm).Ok?
    ensures |email| >= 5
    ensures exists i :: 0 <= i < |email| - 4 && email[i] == '@'
  {
    var i :| 0 <= i < |email| && email[i] == '@';
    var n := |email|;
    assert email[n - 4..] == ".edu";
    assert email[n - 4] == '.' && email[n - 3] == 'e' && email[n - 2] == 'd' && email[n - 1] == 'u';
    assert i < n - 4;
  }
}

=== FILE: scenarios.dfy ===
/** Concrete runs on the seed data: five upvotes on the first professor,
    a malformed vote, and the seed leaderboard. */
module Scenarios {
  import opened Wrappers
  import opened Percentages
  import opened Domain
  import opened Ledger
  import opened Server
  import opened Leaderboard
  import MarketClock

  /** The state the scenario moves through: market open and `prof-1`,
      starting from 100, first in the ledger at `price` after `votes`
      votes. */
  predicate Ready(st: State, price: int, votes: int) {
    && st.market.isOpen && |st.ledger| > 0 && st.ledger[0].id == "prof-1"
    && st.ledger[0].startingStock == 100 && st.ledger[0].currentStock == price
    && st.ledger[0].totalVotes == votes
  }

  /** An upvote on `prof-1` is accepted and broadcasts no news: only the
      stock update and the room record. */
  predicate Quiet(st: State, now: Stamp) {
    && SubmitVote(st, "prof-1", Some("upvote"), now).Ok?
    && |SubmitVote(st, "prof-1", Some("upvote"), now).value.emissions| == 2
  }

  function UpvoteFirst(now: Stamp): VoteRequest {
    VoteRequest("prof-1", Some("upvote"), now)
  }

  /** An upvote on `prof-1` that leaves its price strictly between 90 and
      110 succeeds, raises the price by one and produces no news. */
  lemma QuietUpvoteOnFirst(st: State, price: int, votes: int, now: Stamp)
    requires Ready(st, price, votes) && 90 <= price < 109
    ensures SubmitVote(st, "prof-1", Some("upvote"), now).Ok?
    ensures |SubmitVote(st, "prof-1", Some("upvote"), now).value.emissions| == 2
    ensures Ready(Step(st, UpvoteFirst(now)), price + 1, votes + 1)
  {
    NewsThreshold(st, "prof-1", Some("upvote"), now);
  }

  /** The server started at 10 o'clock is open, with `prof-1` first at
      95 after 23 votes. */
  lemma StartIsReady(boot: Stamp, today: int)
    ensures Ready(Start(boot, today, 10, 0), 95, 23)
  {
  }

  /** Five upvotes on `prof-1` from 95 bring its price back to 100 and
      its percentage to 0, and none of them produces news. Together with
      `StartIsReady` this is the run from the seed. */
  lemma FiveUpvotes(st0: State, t: Stamp)
    requires Ready(st0, 95, 23)
    ensures var st1 := Step(st0, UpvoteFirst(t));
            var st2 := Step(st1, UpvoteFirst(t));
            var st3 := Step(st2, UpvoteFirst(t));
            var st4 := Step(st3, UpvoteFirst(t));
            && Quiet(st0, t) && Quiet(st1, t) && Quiet(st2, t) && Quiet(st3, t) && Quiet(st4, t)
            && var out := SubmitVote(st4, "prof-1", Some("upvote"), t).value;
               && out.state.ledger[0].currentStock == 100
               && out.state.ledger[0].dailyChangePercent == Finite(0.0)
               && out.state.ledger[0].totalVotes == 28
  {
    QuietUpvoteOnFirst(st0, 95, 23, t);
    var st1 := Step(st0, UpvoteFirst(t));
    QuietUpvoteOnFirst(st1, 96, 24, t);
    var st2 := Step(st1, UpvoteFirst(t));
    QuietUpvoteOnFirst(st2, 97, 25, t);
    var st3 := Step(st2, UpvoteFirst(t));
    QuietUpvoteOnFirst(st3, 98, 26, t);
    var st4 := Step(st3, UpvoteFirst(t));
    QuietUpvoteOnFirst(st4, 99, 27, t);
    assert Step(st4, UpvoteFirst(t)) == SubmitVote(st4, "prof-1", Some("upvote"), t).value.state;
    assert PercentOf(0, 100) == Finite(0.0);
  }

  /** While the market is open, a vote of any other kind, or with no kind,
      is refused and leaves the state as it was. */
  lemma SidewaysRejected(st: State, id: string, t: Stamp)
    requires st.market.isOpen
    ensures SubmitVote(st, id, Some("sideways"), t) == Err(InvalidVoteType)
    ensures SubmitVote(st, id, None, t) == Err(InvalidVoteType)
    ensures Step(st, VoteRequest(id, Some("sideways"), t)) == st
  {
  }

  /** Outside 8 to 21 o'clock the seeded server refuses every vote. */
  lemma ClosedAtNight(boot: Stamp, today: int, hour: MarketClock.HourOfDay, id: string, kind: Option<string>, t: Stamp)
    requires hour < 8 || hour >= 21
    ensures SubmitVote(Start(boot, today, hour, 0), id, kind, t) == Err(MarketClosed)
  {
  }

  /** The seed's prices 95, 108 and 102 rank as 108, 102, 95. */
  lemma SeedLeaderboard(boot: Stamp)
    ensures var l := Seed(boot);
            TopProfessors(l) == [l[1], l[2], l[0]]
  {
    var l := Seed(boot);
    RanksThree(l[0], l[1], l[2]);
    assert l == [l[0], l[1], l[2]];
  }

  /** Three records whose prices are in the order second, third, first
      are ranked in that order. */
  lemma RanksThree(a: Professor, b: Professor, c: Professor)
    requires b.currentStock > c.currentStock > a.currentStock
    ensures TopProfessors([a, b, c]) == [b, c, a]
  {
    SortsTwo(b, c);
    assert [a, b, c][1..] == [b, c];
    InsertBelowAll(a, [b, c]);
  }

  lemma SortsTwo(b: Professor, c: Professor)
    requires b.currentStock > c.currentStock
    ensures SortByStock([b, c]) == [b, c]
  {
    assert [b, c][1..] == [c] && [c][1..] == [];
    assert SortByStock([c]) == [c];
  }
}

=== FILE: seqs.dfy ===
/** Order-preserving filtering of sequences, used by the client store
    (`Array.prototype.filter`) and by the selection toggle. */
module Seqs {

  /** The elements of `s` that satisfy `keep`, in their original order. */
  function Filter<T>(s: seq<T>, keep: T -> bool): (r: seq<T>)
    ensures |r| <= |s|
    ensures forall i :: 0 <= i < |r| ==> r[i] in s && keep(r[i])
    ensures forall i :: 0 <= i < |s| && keep(s[i]) ==> s[i] in r
  {
    if s == [] then []
    else if keep(s[0]) then [s[0]] + Filter(s[1..], keep)
    else Filter(s[1..], keep)
  }

  /** `a` can be obtained from `b` by deleting elements: the order of what
      remains is the order it had in `b`. */
  ghost predicate Subsequence<T>(a: seq<T>, b: seq<T>)
    decreases |b|
  {
    if a == [] then true
    else if b == [] then false
    else (a[0] == b[0] && Subsequence(a[1..], b[1..])) || Subsequence(a, b[1..])
  }

  /** Every element is distinct. */
  predicate NoDuplicates<T(==)>(s: seq<T>) {
    forall i, j :: 0 <= i < j < |s| ==> s[i] != s[j]
  }

  /** Filtering distributes over concatenation. */
  lemma {:induction false} FilterAppend<T>(s: seq<T>, t: seq<T>, keep: T -> bool)
    ensures Filter(s + t, keep) == Filter(s, keep) + Filter(t, keep)
  {
    if s == [] {
      assert s + t == t;
    } else {
      assert (s + t)[0] == s[0];
      assert (s + t)[1..] == s[1..] + t;
      FilterAppend(s[1..], t, keep);
    }
  }

  /** Filtering keeps order: the result is a subsequence of the input. */
  lemma {:induction false} FilterIsSubsequence<T>(s: seq<T>, keep: T -> bool)
    ensures Subsequence(Filter(s, keep), s)
  {
    if s != [] {
      FilterIsSubsequence(s[1..], keep);
      if !keep(s[0]) {
        var r := Filter(s[1..], keep);
        if r != [] {
          assert Subsequence(r, s[1..]);
        }
      }
    }
  }

  /** Filtering keeps every wanted element as often as it occurs and drops
      every unwanted one. */
  lemma {:induction false} FilterCount<T>(s: seq<T>, keep: T -> bool, x: T)
    ensures multiset(Filter(s, keep))[x] == if keep(x) then multiset(s)[x] else 0
  {
    if s != [] {
      FilterCount(s[1..], keep, x);
      assert s == [s[0]] + s[1..];
    }
  }

  /** Filtering a sequence all of whose elements are wanted changes nothing. */
  lemma {:induction false} FilterAllKept<T>(s: seq<T>, keep: T -> bool)
    requires forall i :: 0 <= i < |s| ==> keep(s[i])
    ensures Filter(s, keep) == s
  {
    if s != [] {
      FilterAllKept(s[1..], keep);
    }
  }

  /** A filtered sequence without duplicates stays without duplicates. */
  lemma {:induction false} FilterNoDuplicates<T>(s: seq<T>, keep: T -> bool)
    requires NoDuplicates(s)
    ensures NoDuplicates(Filter(s, keep))
  {
    if s != [] {
      FilterNoDuplicates(s[1..], keep);
      assert s[0] !in s[1..];
    }
  }
}

=== FILE: server.dfy ===
/** The backend process: market clock, ledger and session registry, the
    push-channel handlers, the vote endpoint and the broadcasts a vote
    triggers. Every handler is a function from the old state to the new
    state and the messages it emits, each with its audience. */
module Server {
  import opened Wrappers
  import opened Percentages
  import opened Domain
  import opened Ledger
  import opened Sessions
  import opened MarketClock

  /** The payload of a `stock_update` message. */
  datatype StockUpdateData = StockUpdateData(
    professorId: string,
    newPrice: int,
    change: int,
    changePercent: Percent,
    volume: int)

  /** What travels over the push channel, one constructor per event name. */
  datatype Message =
    | MarketStatus(hours: MarketHours)
    | ProfessorsData(professors: seq<Professor>)
    | StockUpdate(data: StockUpdateData, timestamp: Stamp)
    | ProfessorUpdate(professor: Professor)
    | NewsEventMessage(event: NewsEvent, timestamp: Stamp)

  /** One emitted message and the sessions it reaches. */
  datatype Emission = Emission(audience: set<SessionId>, message: Message)

  datatype State = State(market: MarketHours, ledger: seq<Professor>, sessions: Registry)

  /** The process at start-up: the seed ledger, no sessions, and the
      market status computed once for the start-up time. */
  function Start(boot: Stamp, today: int, hour: HourOfDay, minute: MinuteOfHour): (st: State)
    ensures st.ledger == Seed(boot)
    ensures LedgerConsistent(st.ledger) && |st.ledger| == 3 && st.sessions == map[]
    ensures st.market.(isOpen := false, nextOpenTime := None) == MarketClock.Initial
    ensures st.market.isOpen <==> 8 <= hour < 21
    ensures st.market.isOpen ==> st.market.nextOpenTime == None
    ensures hour < 8 ==> st.market.nextOpenTime == Some(At(Instant(today, 8)))
    ensures hour >= 21 ==> st.market.nextOpenTime == Some(At(Instant(today + 1, 8)))
  {
    SeedIsConsistent(boot);
    ConfiguredWindow(today, hour, minute);
    State(UpdateMarketStatus(MarketClock.Initial, today, hour, minute), Seed(boot), map[])
  }

  /** The once-a-minute recomputation of the market status; nothing else
      changes. */
  function Tick(st: State, today: int, hour: HourOfDay, minute: MinuteOfHour): (st': State)
    ensures st'.ledger == st.ledger && st'.sessions == st.sessions
    ensures st'.market == UpdateMarketStatus(st.market, today, hour, minute)
    ensures st'.market.isOpen <==> OpenAt(st.market, hour)
  {
    st.(market := UpdateMarketStatus(st.market, today, hour, minute))
  }

  /** `connection`: register the session and send it, and only it, the
      market status and then the whole ledger. */
  function OnConnect(st: State, s: SessionId): (r: (State, seq<Emission>))
    ensures r.0.sessions == Connect(st.sessions, s)
    ensures r.0.sessions.Keys == st.sessions.Keys + {s} && r.0.sessions[s] == {}
    ensures r.0.ledger == st.ledger && r.0.market == st.market
    ensures r.1 == [Emission({s}, MarketStatus(st.market)), Emission({s}, ProfessorsData(st.ledger))]
  {
    (st.(sessions := Connect(st.sessions, s)), [Emission({s}, MarketStatus(st.market)), Emission({s}, ProfessorsData(st.ledger))])
  }

  /** `get_professors`: the whole ledger, to the asking session only. */
  function OnGetProfessors(st: State, s: SessionId): (e: seq<Emission>)
    ensures |e| == 1 && e[0].audience == {s} && e[0].message == ProfessorsData(st.ledger)
  {
    [Emission({s}, ProfessorsData(st.ledger))]
  }

  function OnSubscribe(st: State, s: SessionId, professorId: string): (st': State)
    ensures st'.ledger == st.ledger && st'.market == st.market
    ensures st'.sessions == Subscribe(st.sessions, s, professorId)
    ensures s in st.sessions ==> Subscribed(st'.sessions, s, professorId)
  {
    st.(sessions := Subscribe(st.sessions, s, professorId))
  }

  function OnUnsubscribe(st: State, s: SessionId, professorId: string): (st': State)
    ensures st'.ledger == st.ledger && st'.market == st.market
    ensures st'.sessions == Unsubscribe(st.sessions, s, professorId)
    ensures !Subscribed(st'.sessions, s, professorId)
  {
    st.(sessions := Unsubscribe(st.sessions, s, professorId))
  }

  function OnDisconnect(st: State, s: SessionId): (st': State)
    ensures st'.ledger == st.ledger && st'.market == st.market
    ensures st'.sessions == Disconnect(st.sessions, s)
    ensures s !in Everyone(st'.sessions)
  {
    st.(sessions := Disconnect(st.sessions, s))
  }

  /** `broadcastStockUpdate`: the stock update to everyone, then the whole
      record to the professor's room. */
  function BroadcastStockUpdate(reg: Registry, p: Professor, now: Stamp): (e: seq<Emission>)
    ensures |e| == 2
    ensures e[0].audience == Everyone(reg) && e[0].message.StockUpdate?
    ensures e[0].message.data == StockUpdateData(p.id, p.currentStock, p.dailyChange, p.dailyChangePercent, p.totalVotes)
    ensures forall s :: s in e[1].audience <==> Subscribed(reg, s, p.id)
    ensures e[1].message == ProfessorUpdate(p)
  {
    var data := StockUpdateData(p.id, p.currentStock, p.dailyChange, p.dailyChangePercent, p.totalVotes);
    [Emission(Everyone(reg), StockUpdate(data, now)), Emission(InRoom(reg, RoomName(p.id)), ProfessorUpdate(p))]
  }

  /** The headline written about a record whose move is significant. */
  function HeadlineFor(p: Professor): (h: Headline)
    ensures h.direction == Up <==> IsPositive(p.dailyChangePercent)
    ensures h.percent == p.dailyChangePercent && h.price == p.currentStock && h.professorName == p.name
  {
    Headline(if IsPositive(p.dailyChangePercent) then Up else Down, p.name, p.dailyChangePercent, p.currentStock)
  }

  /** `broadcastNewsEvent`: a news event to everyone, always tagged as an
      announcement whatever its direction. */
  function BroadcastNewsEvent(reg: Registry, headline: Headline, professorId: string, now: Stamp): (e: Emission)
    ensures e.audience == Everyone(reg) && e.message.NewsEventMessage?
    ensures e.message.event.eventType == Announcement
    ensures e.message.event.professorId == Some(professorId) && e.message.event.headline == headline
  {
    Emission(Everyone(reg), NewsEventMessage(NewsEvent(now, headline, Some(professorId), Announcement, now), now))
  }

  datatype VoteError = MarketClosed | InvalidVoteType | ProfessorNotFound

  /** The HTTP status the endpoint answers an error with. */
  function HttpStatus(e: VoteError): (code: int)
    ensures e == ProfessorNotFound <==> code == 404
    ensures e != ProfessorNotFound <==> code == 400
  {
    match e
    case MarketClosed => 400
    case InvalidVoteType => 400
    case ProfessorNotFound => 404
  }

  /** The vote echoed back in the response (`vote-<stamp>` is its id). */
  datatype VoteReceipt = VoteReceipt(id: Stamp, professorId: string, voteType: VoteKind, createdAt: Stamp)

  /** A successful vote: the new state, the response body and the
      messages broadcast. */
  datatype VoteOutcome = VoteOutcome(state: State, receipt: VoteReceipt, professor: Professor, emissions: seq<Emission>)

  /** `POST /api/professors/:id/vote` at time `now`. */
  function SubmitVote(st: State, id: string, voteType: Option<string>, now: Stamp): (r: Result<VoteOutcome, VoteError>)
    ensures r == Err(MarketClosed) <==> !st.market.isOpen
    ensures r == Err(InvalidVoteType) <==> st.market.isOpen && ParseVoteType(voteType).None?
    ensures r == Err(ProfessorNotFound) <==>
              st.market.isOpen && ParseVoteType(voteType).Some? && FindIndex(st.ledger, id).None?
    ensures r.Ok? <==>
              st.market.isOpen && ParseVoteType(voteType).Some? && FindIndex(st.ledger, id).Some?
    ensures r.Ok? ==>
              var k := FindIndex(st.ledger, id).value;
              && r.value.state.market == st.market && r.value.state.sessions == st.sessions
              && |r.value.state.ledger| == |st.ledger|
              && r.value.state.ledger[k] == ApplyVote(st.ledger[k], ParseVoteType(voteType).value, now)
              && (forall j :: 0 <= j < |st.ledger| && j != k ==> r.value.state.ledger[j] == st.ledger[j])
              && r.value.professor == r.value.state.ledger[k]
              && r.value.receipt == VoteReceipt(now, id, ParseVoteType(voteType).value, now)
  {
    if !st.market.isOpen then Err(MarketClosed)
    else match ParseVoteType(voteType)
      case None => Err(InvalidVoteType)
      case Some(kind) =>
        match FindIndex(st.ledger, id)
        case None => Err(ProfessorNotFound)
        case Some(k) =>
          var p := ApplyVote(st.ledger[k], kind, now);
          var stock := BroadcastStockUpdate(st.sessions, p, now);
          var news := if Significant(p.dailyChangePercent)
                      then [BroadcastNewsEvent(st.sessions, HeadlineFor(p), p.id, now)]
                      else [];
          Ok(VoteOutcome(st.(ledger := st.ledger[k := p]), VoteReceipt(now, id, kind, now), p, stock + news))
  }

  /** What a successful vote broadcasts: one global stock update carrying
      the new price, change and volume; the record to the professor's
      subscribers; and then, exactly when the new percentage is at least
      10 in magnitude, one announcement to everyone whose direction is up
      exactly when the percentage is positive. */
  lemma VoteBroadcasts(st: State, id: string, voteType: Option<string>, now: Stamp)
    requires SubmitVote(st, id, voteType, now).Ok?
    ensures var out := SubmitVote(st, id, voteType, now).value;
            var e := out.emissions;
            var q := out.professor;
            && q.id == id
            && (|e| == 2 || |e| == 3)
            && e[0].audience == Everyone(st.sessions)
            && e[0].message.StockUpdate?
            && e[0].message.data == StockUpdateData(id, q.currentStock, q.dailyChange, q.dailyChangePercent, q.totalVotes)
            && (forall i :: 1 <= i < |e| ==> !e[i].message.StockUpdate?)
            && (forall s :: s in e[1].audience <==> Subscribed(st.sessions, s, id))
            && e[1].message == ProfessorUpdate(q)
            && (|e| == 3 <==> Significant(q.dailyChangePercent))
            && (|e| == 3 ==>
                  && e[2].audience == Everyone(st.sessions)
                  && e[2].message.NewsEventMessage?
                  && e[2].message.event.eventType == Announcement
                  && e[2].message.event.professorId == Some(id)
                  && (e[2].message.event.headline.direction == Up <==> IsPositive(q.dailyChangePercent)))
  {
  }

  /** A successful vote keeps every record consistent, and keeps the ids in
      place. */
  lemma VoteKeepsLedgerConsistent(st: State, id: string, voteType: Option<string>, now: Stamp)
    requires LedgerConsistent(st.ledger)
    requires SubmitVote(st, id, voteType, now).Ok?
    ensures LedgerConsistent(SubmitVote(st, id, voteType, now).value.state.ledger)
    ensures Ids(SubmitVote(st, id, voteType, now).value.state.ledger) == Ids(st.ledger)
  {
    var k := FindIndex(st.ledger, id).value;
    VotePreservesConsistency(st.ledger[k], ParseVoteType(voteType).value, now);
  }

  /** For records starting at 100, news follows exactly the votes that
      leave the price at least 10 away from 100. */
  lemma NewsThreshold(st: State, id: string, voteType: Option<string>, now: Stamp)
    requires SubmitVote(st, id, voteType, now).Ok?
    requires st.ledger[FindIndex(st.ledger, id).value].startingStock == 100
    ensures var out := SubmitVote(st, id, voteType, now).value;
            |out.emissions| == 3 <==> out.professor.currentStock >= 110 || out.professor.currentStock <= 90
  {
    var q := SubmitVote(st, id, voteType, now).value.professor;
    SignificantIff(q.currentStock - 100, 100);
  }

  /** A vote request as it reaches the endpoint. */
  datatype VoteRequest = VoteRequest(professorId: string, voteType: Option<string>, now: Stamp)

  /** The state after one request: a rejected vote changes nothing. */
  function Step(st: State, req: VoteRequest): (st': State)
    ensures SubmitVote(st, req.professorId, req.voteType, req.now).Err? ==> st' == st
  {
    match SubmitVote(st, req.professorId, req.voteType, req.now)
    case Ok(out) => out.state
    case Err(_) => st
  }

  /** The state after a sequence of requests, in arrival order. */
  function Replay(st: State, reqs: seq<VoteRequest>): State
    decreases |reqs|
  {
    if reqs == [] then st else Replay(Step(st, reqs[0]), reqs[1..])
  }

  /** However many votes arrive, accepted or rejected, every record stays
      consistent, no record appears, disappears or moves, and the market
      and the sessions are untouched. */
  lemma {:induction false} ReplayKeepsLedgerConsistent(st: State, reqs: seq<VoteRequest>)
    requires LedgerConsistent(st.ledger)
    ensures LedgerConsistent(Replay(st, reqs).ledger)
    ensures Ids(Replay(st, reqs).ledger) == Ids(st.ledger)
    ensures Replay(st, reqs).market == st.market && Replay(st, reqs).sessions == st.sessions
    decreases |reqs|
  {
    if reqs != [] {
      var req := reqs[0];
      if SubmitVote(st, req.professorId, req.voteType, req.now).Ok? {
        VoteKeepsLedgerConsistent(st, req.professorId, req.voteType, req.now);
      }
      ReplayKeepsLedgerConsistent(Step(st, req), reqs[1..]);
    }
  }
}

=== FILE: sessions.dfy ===
/** The push channel's session registry: every connected session and the
    rooms it has joined. A session subscribed to a professor is in the
    room `professor_<id>`; broadcasts go to all sessions or to one room. */
module Sessions {

  type SessionId = string

  /** Connected sessions and, for each, the rooms it is in. */
  type Registry = map<SessionId, set<string>>

  const RoomPrefix := "professor_"

  /** The room of a professor's topic. */
  function RoomName(professorId: string): (room: string)
    ensures |room| == |RoomPrefix| + |professorId|
    ensures room[..|RoomPrefix|] == RoomPrefix
    ensures room[|RoomPrefix|..] == professorId
  {
    RoomPrefix + professorId
  }

  /** Different professors have different rooms, so a topic update for
      one never reaches the subscribers of another. */
  lemma RoomNameInjective(a: string, b: string)
    requires RoomName(a) == RoomName(b)
    ensures a == b
  {
    assert a == RoomName(a)[|RoomPrefix|..];
  }

  /** Every connected session: the audience of a global `io.emit`. */
  function Everyone(reg: Registry): set<SessionId> {
    reg.Keys
  }

  /** The connected sessions in `room`: the audience of `io.to(room).emit`. */
  function InRoom(reg: Registry, room: string): (audience: set<SessionId>)
    ensures forall s :: s in audience <==> s in reg && room in reg[s]
  {
    set s | s in reg && room in reg[s]
  }

  /** A session that subscribed to `professorId` and is still connected. */
  predicate Subscribed(reg: Registry, s: SessionId, professorId: string) {
    s in reg && RoomName(professorId) in reg[s]
  }

  /** A new connection, in no professor room yet. */
  function Connect(reg: Registry, s: SessionId): (reg': Registry)
    ensures reg'.Keys == reg.Keys + {s}
    ensures reg'[s] == {}
    ensures forall t :: t in reg && t != s ==> reg'[t] == reg[t]
  {
    reg[s := {}]
  }

  /** A disconnect removes the session together with all its rooms. */
  function Disconnect(reg: Registry, s: SessionId): (reg': Registry)
    ensures reg'.Keys == reg.Keys - {s}
    ensures forall t :: t in reg' ==> reg'[t] == reg[t]
    ensures forall room :: s !in InRoom(reg', room)
  {
    reg - {s}
  }

  /** `subscribe_professor`: join the professor's room. A session that is
      not connected has no handler, so nothing happens. */
  function Subscribe(reg: Registry, s: SessionId, professorId: string): (reg': Registry)
    ensures reg'.Keys == reg.Keys
    ensures s in reg ==> reg'[s] == reg[s] + {RoomName(professorId)}
    ensures forall t :: t in reg && t != s ==> reg'[t] == reg[t]
    ensures s !in reg ==> reg' == reg
  {
    if s in reg then reg[s := reg[s] + {RoomName(professorId)}] else reg
  }

  /** `unsubscribe_professor`: leave the professor's room; leaving a room
      the session is not in is a no-op. */
  function Unsubscribe(reg: Registry, s: SessionId, professorId: string): (reg': Registry)
    ensures reg'.Keys == reg.Keys
    ensures s in reg ==> reg'[s] == reg[s] - {RoomName(professorId)}
    ensures forall t :: t in reg && t != s ==> reg'[t] == reg[t]
    ensures s !in reg ==> reg' == reg
  {
    if s in reg then reg[s := reg[s] - {RoomName(professorId)}] else reg
  }

  /** Subscribing twice is subscribing once. */
  lemma SubscribeIdempotent(reg: Registry, s: SessionId, professorId: string)
    ensures Subscribe(Subscribe(reg, s, professorId), s, professorId) == Subscribe(reg, s, professorId)
  {
  }

  /** Unsubscribing undoes a subscription that was not held before. */
  lemma UnsubscribeUndoesSubscribe(reg: Registry, s: SessionId, professorId: string)
    requires !Subscribed(reg, s, professorId)
    ensures Unsubscribe(Subscribe(reg, s, professorId), s, professorId) == reg
  {
    if s in reg {
      assert reg[s] + {RoomName(professorId)} - {RoomName(professorId)} == reg[s];
    }
  }

  /** After subscribing to one professor, a session hears that professor's
      topic and its membership in every other professor's topic is what it
      was. */
  lemma SubscribeAudience(reg: Registry, s: SessionId, p: string, q: string)
    requires s in reg
    ensures Subscribed(Subscribe(reg, s, p), s, p)
    ensures q != p ==> (Subscribed(Subscribe(reg, s, p), s, q) <==> Subscribed(reg, s, q))
  {
    if q != p && RoomName(q) == RoomName(p) {
      RoomNameInjective(q, p);
    }
  }

  /** The room audience of a professor is exactly the connected sessions
      subscribed to that professor. */
  lemma RoomAudienceIsSubscribers(reg: Registry, professorId: string, s: SessionId)
    ensures s in InRoom(reg, RoomName(professorId)) <==> Subscribed(reg, s, professorId)
  {
  }
}

=== FILE: wrappers.dfy ===
/** Optional values and success-or-error results, the shapes the
    TypeScript code expresses with `undefined` and with early error returns. */
module Wrappers {

  /** A value that may be absent (`undefined`, `null` or `NaN` in the source). */
  datatype Option<+T> = None | Some(value: T)

  /** The outcome of an operation that either succeeds with a value or
      fails with one of a fixed set of errors. */
  datatype Result<+T, +E> = Ok(value: T) | Err(error: E)
}
